=== FILE: README.md ===
# hpydev Go installer: a Dafny model

hpydev is a command-line helper that installs and removes the Go toolchain.
This project models its two pieces of real logic and proves properties of
them.

- **The version parser** (`src/semver.rs`). `SemanticVersion::from_str`
  strips every leading `v` and splits the rest on `.`. It then requires at
  least three segments and reads the first three as `u64`. The model also
  covers `Default` and the hand-written `PartialEq`.
- **The Go operator** (`src/go.rs`). This covers:
  - the case-insensitive `Arch` parser;
  - the `TryFrom` conversions into `InstallParam` and `UninstallParam`;
  - the archive name builder `make_archive_segment`;
  - `Operator::install` and `Operator::uninstall`.

The two operations become pure functions. Each takes what its collaborators
report: the detected OS, the HTTP outcome, the body stream, the outcome of
opening the staging file, one result per file write, the outcomes of `create_dir_all`, spawning `tar` and
`remove_file`, the prompt answer, and the `remove_dir_all` result. Each
returns the trace of effects it performed together with its `Result`.

A panic from an `unwrap` is a third outcome, `Panic`, beside `Ok` and `Err`
(module `Outcomes`). This applies to `unwrap` on a segment that is no
`u64`, and on the OS detection in `install`. Two further `unwrap`s are not
modelled because they cannot fail: `Url::parse` of the fixed base URL
`https://golang.org/dl` (`src/config.rs`) and `path_segments_mut` on that
URL, which has a path and so can take segments (`src/go.rs`).

Modules:

| module | file | models |
|---|---|---|
| `Outcomes` | outcomes.dfy | `Option` and `Result`, with the extra `Panic` outcome |
| `Text` | text.dfy | `str::split`, `trim_start_matches`, `to_ascii_lowercase` |
| `Decimal` | decimal.dfy | `u64::from_str` and `u64` to decimal rendering |
| `Semver` | semver.dfy | `src/semver.rs` |
| `Platform` | platform.dfy | the `Os` enum (`src/lib.rs`) and `util::get_os` |
| `Effects` | effects.dfy | effect traces and I/O outcomes |
| `FsOps` | fsops.dfy | `fsops::extract_tar_gz` as a contract over its collaborators |
| `Go` | go.dfy | `src/go.rs` |
| `GoProps` | go_props.dfy | properties relating several calls of the `Go` operations |

Four behaviours of the code are kept exactly as written:

- **Segments.** The parser needs three segments, and `patch` is not
  optional. A plain `1.15` is therefore rejected.
- **HTTP status.** `error_for_status` rejects only 4xx and 5xx statuses,
  not every status outside 2xx.
- **Tar exit status.** `extract_tar_gz` logs `tar`'s exit status but never
  checks it. A failing `tar` still counts as a successful extraction.
- **Stream errors.** The body loop `while let Some(Ok(v))` stops at the
  first stream error without reporting it. The install then goes on to
  extract whatever was written.

`SemanticVersion::format_without_prefix` is called by `make_archive_segment`
but is not defined in `src/semver.rs`. It is defined here as
`<major>.<minor>.<patch>`, the decimal numerals without a `v`. This matches
the expected archive name in the unit test of `src/go.rs`.

## Model

| member | source | states |
|---|---|---|
| Text.Split | src/semver.rs:24 | `split('.')` yields at least one piece, no piece holds the separator, and the pieces joined by the separator give the input back |
| Text.SplitJoin | src/semver.rs:24 | splitting separator-free pieces joined by the separator returns exactly those pieces |
| Text.SplitAppend | src/semver.rs:24 | splitting `x + sep + t` gives the pieces of `x` followed by the pieces of `t` |
| Text.TrimStartMatches | src/semver.rs:23 | the result is a suffix of the input, every removed character is a `v`, and the result does not start with `v` (all leading `v`s go) |
| Text.TrimStartMatchesIdempotent | src/semver.rs:23 | trimming a trimmed string changes nothing |
| Text.TrimStartMatchesAppend | src/semver.rs:23 | text after a non-empty trimmed prefix is never trimmed |
| Text.TrimStartMatchesStop | src/semver.rs:23 | trimming stops at the first character that is not a `v`: whatever follows it is kept as it is |
| Text.ToAsciiLowercase | src/go.rs:13 | same length, each character lower-cased by the ASCII rule alone, and no `A`..`Z` left |
| Text.ToAsciiLowercaseIdempotent | src/go.rs:13 | lower-casing twice is lower-casing once |
| Decimal.ParseU64 | src/semver.rs:30-32 | a parsed segment is non-empty and holds no `.` or `v`; a leading `-` is rejected |
| Decimal.ToDecimal | src/go.rs:151 | the rendering of a number is a non-empty digit string denoting it, with no leading zero except for 0 |
| Decimal.ToDecimalInjective | src/go.rs:151 | different numbers render differently |
| Decimal.ParseToDecimal | src/semver.rs:30-32 | parsing the rendering of any `u64` gives it back |
| Decimal.OverflowRejected | src/semver.rs:30-32 | a numeral of 2^64 or more is rejected, not wrapped |
| Decimal.ParsePlusSign | src/semver.rs:30-32 | an explicit `+` before the digits is accepted |
| Decimal.ParseLeadingZeros | src/semver.rs:30-32 | leading zeros are accepted, with or without a `+`, and do not change the value (`007` is 7) |
| Decimal.ParseU64Accepted | src/semver.rs:30-32 | conversely, every accepted string is an optional `+`, some zeros, and the canonical numeral of the value returned, which is below 2^64 |
| Semver.FromStr | src/semver.rs:20-43 | `Err(InvalidFormat)` iff fewer than three segments; `Panic` iff three or more segments and one of the first three is not a `u64`; on `Ok`, both suffixes are `None` and the components are the parses of segments 0 to 2 |
| Semver.Default | src/semver.rs:45-55 | the default has no suffixes and renders as `0.1.0` |
| Semver.Eq | src/semver.rs:57-65 | the hand-written field-by-field equality holds exactly when the two versions are equal |
| Semver.FormatWithoutPrefix | src/go.rs:151 | the rendering starts with a digit and splits at its dots into exactly the three decimal numerals of major, minor and patch |
| Semver.EqIsStructural | src/semver.rs:57-65 | the hand-written equality holds iff all five fields agree; it is reflexive, symmetric and transitive |
| Semver.SegmentsOfThree | src/semver.rs:23-24 | three dot-free pieces joined by dots give exactly three segments: the first with its leading `v`s trimmed, the other two unchanged |
| Semver.FromStrOfThree | src/semver.rs:20-43 | on three dot-free pieces the parse is `Ok` with their three values iff all three (the first with its `v`s trimmed) are `u64`s, and a panic otherwise |
| Semver.NonNumericPatchPanics | src/semver.rs:28-33 | a third segment that is not a `u64` panics whatever the first two are |
| Semver.FormatRoundTrip | src/semver.rs:20-43 | every version without suffixes parses back from its rendering, with or without a leading `v` |
| Semver.PrefixIgnored | src/semver.rs:23 | a leading `v` never changes the parse |
| Semver.FromStrReadsThreeSegments | src/semver.rs:29-33 | two inputs with the same first three segments parse alike |
| Semver.SegmentsAppend | src/semver.rs:23-24 | appending `.t` to an input appends the pieces of `t` to its segments |
| Semver.TrailingSegmentsIgnored | src/semver.rs:29-33 | once three segments are present, anything appended after a further `.` is ignored |
| Semver.DefaultRoundTrip | src/semver.rs:45-55 | the default is 0.1.0 with no suffixes and parses back from `0.1.0` |
| Semver.ParseUnitTest | src/semver.rs:71-92 | `v0.1.2` and `0.1.2` both parse to 0.1.2 with no suffixes |
| Semver.DoublePrefixExample | src/semver.rs:23 | `vv1.2.3` parses to 1.2.3 |
| Semver.FourthSegmentExample | src/semver.rs:29-33 | `1.2.3.4` parses to 1.2.3 |
| Semver.TooFewSegmentsExample | src/semver.rs:25-27 | `1.2` and the empty string are `Err` with the fixed message |
| Semver.PreReleaseSuffixPanics | src/semver.rs:28-35 | `1.2.3-beta` panics: pre-release suffixes are not parsed |
| Platform.GetOs | src/util.rs:1-9 | only a macOS build detects an OS, and `Linux` is never produced |
| FsOps.ExtractTarGz | src/fsops.rs:7-28 | the effects are a prefix of creating `dest` once and then spawning `tar` once; `tar` is spawned iff the creation succeeded; a creation or spawn error is returned as it is; success iff the directory was created and `tar` was spawned, whatever its exit status |
| Go.ArchFromStr | src/go.rs:10-18 | `Ok(Amd64)` iff the input has five characters that lower-case to `amd64`; otherwise the error quotes the lower-cased input; never panics |
| Go.InstallParamFrom | src/go.rs:29-41 | `Ok` iff version and arch both parse, with the parsed version (no suffixes) and `dest` copied unchanged; a version error gets the `semantic version. ` prefix; an arch error is passed through; a panic iff the version parse panics |
| Go.UninstallParamFrom | src/go.rs:49-57 | always `Ok`, copying `go_root` and `skip_prompt` unchanged |
| Go.MakeArchiveSegment | src/go.rs:140-155 | the segment starts with `go` and a digit, and every character is unreserved in the sense of section 2.3 of RFC 3986, so appending it to the URL path leaves it verbatim |
| Go.LeadingData | src/go.rs:97 | the chunks consumed are the body's leading `Ok` items, in order, ending at the first stream error or the end of the stream |
| Go.WriteChunks | src/go.rs:97-99 | the writes are a prefix of one `write_all` per leading chunk; all are done iff each write succeeds; a failure is the error of the last write performed |
| Go.Finish | src/go.rs:103-104 | the effects are a prefix of create dir, spawn `tar`, remove the staging file; removal happens iff extraction returned `Ok`; `Ok` iff all three succeed |
| Go.Store | src/go.rs:91-104 | open, writes, extraction and removal form a prefix of their plan; the writes finish iff the open and every write succeed; `Ok` iff every step succeeds, and then the whole plan ran; a failed open ends it at once with that error; a failing write ends it right after that write, with that write's error, every earlier write having succeeded; once every write succeeds, the rest is the finish, with its result |
| Go.Download | src/go.rs:84-104 | the GET is always the first effect, and no panic arises after it |
| Go.Install | src/go.rs:70-110 | no detected OS panics before any effect; otherwise the GET of the archive URL comes first |
| Go.Uninstall | src/go.rs:112-135 | recursive deletion of `go_root` happens iff the prompt is skipped or answered yes, at most once and as the last effect; confirmation is asked iff not skipped, and then exactly once; the trace holds nothing else; a "no" is `Ok`; a prompt error is returned; after deletion the result is that call's result |
| GoProps.ArchFromStrCaseInsensitive | src/go.rs:13 | tokens that lower-case alike parse alike, and every `Arch` renders to a token that parses back to it |
| GoProps.ArchExamples | src/go.rs:10-18 | `AMD64`, `Amd64` and the default `amd64` are accepted; `arm64` gives `undefined arch arm64` |
| GoProps.ParseV115 | src/go.rs:165 | `v1.15.0` parses to 1.15.0 |
| GoProps.InstallParamExample | src/go.rs:29-41 | `v1.15.0` with `AMD64` converts, keeping `dest` |
| GoProps.InstallParamShortVersion | src/go.rs:33-36 | `1.15` fails with the parser's message behind `semantic version. ` |
| GoProps.SegmentV115 | src/go.rs:149-154 | version 1.15.0 on Darwin and amd64 is named `go1.15.0.darwin-amd64.tar.gz` |
| GoProps.ArchiveSegmentExample | src/go.rs:157-177 | parsing `v1.15.0` and naming its archive gives `go1.15.0.darwin-amd64.tar.gz`, with no `v` in the name |
| GoProps.SegmentShape | src/go.rs:149-154 | the segment is `go`, major, minor and patch, then `<os>-<arch>`, `tar` and `gz`, joined by dots |
| GoProps.SplitSegment | src/go.rs:140-155 | the segment splits at its dots into exactly those six pieces |
| GoProps.ArchiveSegmentInjective | src/go.rs:140-155 | different version numbers, operating systems or architectures never share an archive name |
| GoProps.PlanShape | src/go.rs:91-104 | in the install plan, extraction and removal each occur once, extraction right before removal, and the bytes written before extraction are the concatenated leading chunks |
| GoProps.DownloadFollowsPlan | src/go.rs:84-104 | the effects are always a prefix of the plan; `Ok` iff every collaborator succeeds, and then the whole plan ran; the trace reaches the removal iff every step before it succeeded |
| GoProps.PrefixStagesBeforeExtract | src/go.rs:97-103 | in any prefix of the plan, extraction into `dest` follows the writing of every leading chunk |
| GoProps.PrefixRemovesAfterExtract | src/go.rs:103-104 | in any prefix of the plan, removal of the staging file is last and right after extraction |
| GoProps.InstallDownloads | src/go.rs:73-78 | with an OS detected, `install` is the download from the URL built from the archive segment |
| GoProps.InstallOnBuildTarget | src/go.rs:73 | with the OS from `get_os`, a non-macOS build panics with no effect, and a macOS build fetches the `darwin` archive |
| GoProps.InstallStagesBeforeExtract | src/go.rs:97-103 | `install` extracts into `dest` only after writing exactly the concatenated leading chunks |
| GoProps.InstallRemovesAfterExtract | src/go.rs:103-104 | `install` removes the staging file only as its last effect, right after extraction, and only if the directory was created and `tar` spawned |
| GoProps.InstallSucceedsIff | src/go.rs:70-110 | `install` is `Ok` iff the OS is known, the status is accepted, and the open, every write, the directory, the spawn and the removal succeed; then it performed the whole plan |
| Go.IsErrorStatus | src/go.rs:84 | the statuses `error_for_status` rejects; `GoProps.ErrorStatusClasses` states that these are exactly the 4xx and 5xx classes |
| Go.Endpoint | src/go.rs:74-78 | the archive URL with the segment pushed onto its path; `GoProps.EndpointPushesSegment` states that a name without `/` becomes exactly one more path segment |
| GoProps.ErrorStatusClasses | src/go.rs:84 | a status is rejected iff it is in the client-error (4xx) or server-error (5xx) class |
| GoProps.EndpointPushesSegment | src/go.rs:74-78 | pushing a name without `/` onto the archive URL adds it as exactly one more path segment |
| GoProps.InstallUrlSegment | src/go.rs:73-78 | the download URL is the archive URL with the archive name as its one extra path segment |
| Go.WriteChunksStopsAtFirstFailure | src/go.rs:97-99 | when a write fails, every write before it succeeded: the loop stops at the first failure |
| GoProps.WriteChunksFailsAt | src/go.rs:97-99 | when chunk `k` is the first whose write fails, exactly chunks 0 to `k` are written and that write's error is returned |
| GoProps.FinishFailures | src/go.rs:103-104 | a failed directory creation ends the finish after it, a failed spawn after the spawn, a failed removal after the removal, each with its own error |
| GoProps.StoreAfterWrites | src/go.rs:91-104 | once the open and every write succeed, storing is the open, the writes, then the finish, with the finish's result |
| GoProps.DownloadEarlyFailures | src/go.rs:84-95 | a network error, a 4xx/5xx status and a failed open each end `download` at once with their own error |
| GoProps.DownloadWriteFailure | src/go.rs:97-99 | the first failing write ends `download` right after it, with that write's error; nothing is extracted or removed |
| GoProps.DownloadFinishFailures | src/go.rs:103-104 | with every chunk written, a failure to create `dest`, to spawn `tar` or to remove the staging file ends `download` right after that step, with its error |
| GoProps.InstallBadStatus | src/go.rs:84-87 | a 4xx or 5xx status ends `install` right after the GET, with that status as the error |
| GoProps.InstallIgnoresTarExitCode | src/fsops.rs:17-27 | `tar`'s exit code never changes what `install` does or returns |
| GoProps.WriteChunksLeadingData | src/go.rs:97-99 | bodies with the same leading chunks are written alike |
| GoProps.InstallReadsOnlyLeadingData | src/go.rs:97-99 | whatever follows the first stream error never affects `install` |
| GoProps.StreamErrorNotReported | src/go.rs:97 | a stream error after a chunk gives the same result as a stream that ended there |
| GoProps.InstallHappyPath | src/go.rs:70-110 | with every collaborator succeeding and one chunk: GET, open, one write, create, extract, remove, then `Ok` |
| GoProps.InstallHappyPathExample | src/go.rs:70-110 | the same for version 1.15.0, which fetches `go1.15.0.darwin-amd64.tar.gz` |
| GoProps.InstallNotFoundExample | src/go.rs:84-87 | a 404 response is the error, with the GET the only effect |
| GoProps.UninstallExamples | src/go.rs:112-135 | a declined prompt is `Ok` with no deletion; a skipped prompt deletes once without asking; a "yes" asks and then deletes |

## Left out

- Network and file I/O (`reqwest`, tokio files, `tar` itself) are not modelled. They become the outcomes in `Go.World`.
- The text of library errors (I/O, HTTP, prompt) is not modelled. Those errors carry an opaque detail string.
- The interactive prompt is replaced by its outcome. The prompt wording, which quotes the path with `Debug` formatting, is not modelled.
- `util::get_os` is decided at compile time, so `Install` takes the detected OS as an input. `GoProps.InstallOnBuildTarget` ties the two together.
- The `url` crate is not modelled. The endpoint is `https://golang.org/dl`, a `/` and the segment. Percent-encoding is left out because the segment contains only unreserved characters (`Go.MakeArchiveSegment`).
- Logging (`tracing`) is left out: it has no effect on results.
- The command-line layer, the `Upgrade` stub and the runtime set-up are left out. They hold flag declarations and defaults but no logic; the default architecture is kept as the constant `Go.DefaultArch`.
- Parsing of pre-release and build metadata is left out: the source never parses them. The fields exist and always stay `None`.
- Go.Download: the contract states only the first effect and the absence of a panic. The step order and success conditions are stated by `GoProps.DownloadFollowsPlan`; where each failure stops and which error it returns by `GoProps.DownloadEarlyFailures`, `GoProps.DownloadWriteFailure` and `GoProps.DownloadFinishFailures`.
- Go.Install: the contract states the panic and the first effect. The full step order is stated by the `GoProps` lemmas about it.
- Decimal.ParseU64: the contract gives necessary conditions only. The exact set of accepted strings is stated by `Decimal.ParseLeadingZeros` (every optional `+`, zeros and canonical numeral of a `u64` is accepted with that value) and `Decimal.ParseU64Accepted` (nothing else is).
- The staging file is opened with `create` but without `truncate`, and is not flushed before `tar` reads it. The model records the bytes written to it, not the file's resulting contents: a longer file left at the staging path would keep its tail, and that is not modelled.
- Go.WriteChunks: the contract does not say that the writes before a failing one all succeeded. `Go.WriteChunksStopsAtFirstFailure` and `GoProps.WriteChunksFailsAt` state it.
- Go.Finish: the contract does not name the error a failing step returns. `GoProps.FinishFailures` states it.

=== FILE: decimal.dfy ===
/** Unsigned decimal numerals: Rust's `u64::from_str` and `Display` for `u64`. */
module Decimal {
  import opened Outcomes

  const U64_LIMIT: int := 0x1_0000_0000_0000_0000

  /** Rust's `u64`. */
  type u64 = x: int | 0 <= x < 0x1_0000_0000_0000_0000

  predicate IsDigit(c: char)
  {
    '0' <= c <= '9'
  }

  predicate AllDigits(s: string)
  {
    forall i :: 0 <= i < |s| ==> IsDigit(s[i])
  }

  function DigitChar(d: nat): (c: char)
    requires d < 10
    ensures IsDigit(c) && c as int - '0' as int == d
  {
    ('0' as int + d) as char
  }

  /** The number a string of decimal digits denotes (most significant first). */
  function Value(s: string): nat
    requires AllDigits(s)
  {
    if |s| == 0 then 0
    else Value(s[..|s| - 1]) * 10 + (s[|s| - 1] as int - '0' as int)
  }

  /** `u64::from_str`: an optional single `+`, then one or more ASCII digits
      whose value fits in 64 bits. Everything else is an error; the error
      kind is not modelled. */
  function ParseU64(s: string): (r: Option<u64>)
    ensures r.Some? ==> |s| > 0 && '.' !in s && 'v' !in s
    ensures |s| > 0 && s[0] == '-' ==> r.None?
  {
    var digits := if |s| > 0 && s[0] == '+' then s[1..] else s;
    if |digits| > 0 && AllDigits(digits) && Value(digits) < U64_LIMIT then
      assert forall i :: 0 <= i < |s| ==> s[i] == '+' || IsDigit(s[i]) by {
        if |s| > 0 && s[0] == '+' {
          forall i | 1 <= i < |s| ensures IsDigit(s[i]) { assert s[i] == digits[i - 1]; }
        }
      }
      Some(Value(digits))
    else
      None
  }

  /** `n.to_string()`: the canonical decimal numeral of `n`. */
  function ToDecimal(n: nat): (r: string)
    ensures |r| >= 1 && AllDigits(r)
    ensures Value(r) == n
    ensures r[0] == '0' ==> n == 0
    decreases n
  {
    if n < 10 then [DigitChar(n)]
    else
      var r := ToDecimal(n / 10) + [DigitChar(n % 10)];
      assert r[..|r| - 1] == ToDecimal(n / 10);
      r
  }

  /** Different numbers have different numerals. */
  lemma ToDecimalInjective(a: nat, b: nat)
    requires ToDecimal(a) == ToDecimal(b)
    ensures a == b
  {
  }

  /** Round trip: parsing a rendered `u64` gives the number back. */
  lemma ParseToDecimal(n: u64)
    ensures ParseU64(ToDecimal(n)) == Some(n)
  {
    assert ToDecimal(n)[0] != '+';
  }

  /** A numeral too large for 64 bits is rejected, never wrapped. */
  lemma OverflowRejected(n: nat)
    requires n >= U64_LIMIT
    ensures ParseU64(ToDecimal(n)).None?
  {
    assert ToDecimal(n)[0] != '+';
  }

  /** Rust accepts an explicit plus sign on an unsigned number. */
  lemma ParsePlusSign(n: u64)
    ensures ParseU64("+" + ToDecimal(n)) == Some(n)
  {
    assert ("+" + ToDecimal(n))[1..] == ToDecimal(n);
  }

  /** `k` zero digits. */
  function Zeros(k: nat): (z: string)
    ensures |z| == k && AllDigits(z)
  {
    seq(k, _ => '0')
  }

  /** Leading zeros do not change a numeral's value. */
  lemma {:induction false} ValueLeadingZeros(k: nat, t: string)
    requires AllDigits(t)
    ensures AllDigits(Zeros(k) + t) && Value(Zeros(k) + t) == Value(t)
    decreases |t|
  {
    var z := Zeros(k) + t;
    assert AllDigits(z) by {
      forall i | 0 <= i < |z| ensures IsDigit(z[i]) {
        if i < k { assert z[i] == Zeros(k)[i]; } else { assert z[i] == t[i - k]; }
      }
    }
    if |t| == 0 {
      assert z == Zeros(k);
      ValueZeros(k);
    } else {
      var u := t[..|t| - 1];
      assert z[..|z| - 1] == Zeros(k) + u;
      ValueLeadingZeros(k, u);
    }
  }

  lemma {:induction false} ValueZeros(k: nat)
    ensures Value(Zeros(k)) == 0
  {
    if k > 0 {
      assert Zeros(k)[..k - 1] == Zeros(k - 1);
      ValueZeros(k - 1);
    }
  }

  /** A numeral whose first digit is not a zero (or which is `0` itself) is
      the canonical numeral of its value. */
  lemma {:induction false} CanonicalNumeral(d: string)
    requires |d| > 0 && AllDigits(d) && (d[0] != '0' || |d| == 1)
    ensures Value(d) > 0 || d == "0"
    ensures ToDecimal(Value(d)) == d
    decreases |d|
  {
    if |d| > 1 {
      var u := d[..|d| - 1];
      CanonicalNumeral(u);
      var n := Value(d);
      assert n / 10 == Value(u) && n % 10 == d[|d| - 1] as int - '0' as int;
      assert ToDecimal(n) == ToDecimal(n / 10) + [DigitChar(n % 10)];
    }
  }

  /** Every numeral is some zeros followed by the canonical numeral of its
      value. */
  lemma {:induction false} ZerosThenCanonical(d: string) returns (k: nat)
    requires |d| > 0 && AllDigits(d)
    ensures d == Zeros(k) + ToDecimal(Value(d))
    decreases |d|
  {
    if d[0] != '0' || |d| == 1 {
      CanonicalNumeral(d);
      k := 0;
      assert d == Zeros(0) + d;
    } else {
      var u := d[1..];
      var j := ZerosThenCanonical(u);
      ValueLeadingZeros(1, u);
      assert d == Zeros(1) + u;
      k := j + 1;
      assert Zeros(k) == Zeros(1) + Zeros(j);
    }
  }

  /** Leading zeros are accepted, with or without a `+`: `007` parses as 7. */
  lemma ParseLeadingZeros(k: nat, n: u64)
    ensures ParseU64(Zeros(k) + ToDecimal(n)) == Some(n)
    ensures ParseU64("+" + Zeros(k) + ToDecimal(n)) == Some(n)
  {
    var d := Zeros(k) + ToDecimal(n);
    ValueLeadingZeros(k, ToDecimal(n));
    ParseDigits(d);
    assert "+" + Zeros(k) + ToDecimal(n) == "+" + d;
  }

  /** A numeral that fits is accepted, with or without a `+`. */
  lemma ParseDigits(d: string)
    requires |d| > 0 && AllDigits(d) && Value(d) < U64_LIMIT
    ensures ParseU64(d) == Some(Value(d)) && ParseU64("+" + d) == Some(Value(d))
  {
    assert IsDigit(d[0]);
    assert ("+" + d)[0] == '+' && ("+" + d)[1..] == d;
  }

  /** Conversely, an accepted string is an optional `+`, some zeros, and the
      canonical numeral of the number returned. */
  lemma ParseU64Accepted(s: string) returns (plus: bool, k: nat)
    requires ParseU64(s).Some?
    ensures s == (if plus then "+" else "") + Zeros(k) + ToDecimal(ParseU64(s).value)
  {
    var digits;
    plus, digits := AcceptedDigits(s);
    k := ZerosThenCanonical(digits);
    if plus {
      assert "+" + digits == "+" + Zeros(k) + ToDecimal(Value(digits));
    } else {
      assert "" + digits == digits;
    }
  }

  lemma AcceptedDigits(s: string) returns (plus: bool, digits: string)
    requires ParseU64(s).Some?
    ensures |digits| > 0 && AllDigits(digits) && ParseU64(s).value == Value(digits)
    ensures s == (if plus then "+" else "") + digits
  {
    plus := s[0] == '+';
    digits := if plus then s[1..] else s;
    if plus { assert s == "+" + digits; } else { assert s == "" + digits; }
  }
}

=== FILE: effects.dfy ===
/** The observable actions the installer asks of its collaborators (HTTP
    client, file system, `tar`, the terminal prompt), recorded in order. */
module Effects {

  type byte = x: int | 0 <= x < 256

  type Path = string

  /** What an `io::Result<()>` from a file-system call came back as. */
  datatype IoResult = Done | Failed(detail: string)

  datatype Effect =
    | HttpGet(url: string)
    | OpenForWrite(path: Path)
    | WriteAll(path: Path, data: seq<byte>)
    | CreateDirAll(path: Path)
    | SpawnTar(dest: Path, archive: Path)
    | RemoveFile(path: Path)
    | Confirm(target: Path)
    | RemoveDirAll(path: Path)

  /** A sequence of effects together with how the last of them ended. */
  datatype Step = Step(trace: seq<Effect>, result: IoResult)

  /** The bytes the effects in `t` write, in order. */
  function Written(t: seq<Effect>): seq<byte>
  {
    if |t| == 0 then []
    else (if t[0].WriteAll? then t[0].data else []) + Written(t[1..])
  }

  lemma {:induction false} WrittenAppend(a: seq<Effect>, b: seq<Effect>)
    ensures Written(a + b) == Written(a) + Written(b)
    decreases |a|
  {
    if |a| > 0 {
      assert (a + b)[1..] == a[1..] + b;
      WrittenAppend(a[1..], b);
    } else {
      assert a + b == b;
    }
  }
}

=== FILE: fsops.dfy ===
/** `src/fsops.rs`, as a contract on the outcomes its collaborators report. */
module FsOps {
  import opened Effects

  /** How spawning the `tar` child process went. */
  datatype SpawnOutcome = SpawnFailed(detail: string) | Exited(code: int)

  /** `extract_tar_gz(src, dest)`: create `dest` (tar cannot `chdir` into a
      missing directory), then run `tar -C dest -xzf src`. A spawn error is
      reported; tar's exit status is only logged, never checked. */
  function ExtractTarGz(src: Path, dest: Path, createDir: IoResult, tar: SpawnOutcome): (s: Step)
    ensures |s.trace| >= 1 && s.trace[0] == CreateDirAll(dest)
    ensures SpawnTar(dest, src) in s.trace <==> createDir.Done?
    ensures s.trace <= [CreateDirAll(dest), SpawnTar(dest, src)]
    ensures s.result.Done? <==> createDir.Done? && tar.Exited?
    ensures createDir.Failed? ==> s.result == createDir
    ensures createDir.Done? && tar.SpawnFailed? ==> s.result == Failed(tar.detail)
  {
    if createDir.Failed? then Step([CreateDirAll(dest)], createDir)
    else
      var t := [CreateDirAll(dest), SpawnTar(dest, src)];
      match tar
      case SpawnFailed(d) => Step(t, Failed(d))
      case Exited(_) => Step(t, Done)
  }
}

=== FILE: go.dfy ===
/** `src/go.rs`: the Go toolchain operator. Parameter validation, archive
    naming, and `install` / `uninstall` as pure functions from the outcomes
    their collaborators report to the effects performed and the final
    result. */
module Go {
  import opened Outcomes
  import opened Text
  import opened Decimal
  import Semver
  import opened Platform
  import opened Effects
  import FsOps

  datatype Arch = Amd64

  /** The `anyhow::Error`s the operator can end in. `Message` carries a text
      this crate formats itself; the other variants wrap errors whose text
      comes from a library and is not modelled. */
  datatype Error =
    | Message(text: string)
    | HttpStatus(url: string, code: StatusCode)
    | Network(detail: string)
    | Io(detail: string)
    | Prompt(detail: string)

  /** An HTTP status code, as the `http` crate bounds it. */
  type StatusCode = x: int | 100 <= x < 1000 witness 200

  // ---------------------------------------------------------------------
  // Command-line input and validated parameters

  /** `config::go` default for the `--arch` flag. */
  const DefaultArch: string := "amd64"

  /** The raw `go install` arguments. */
  datatype InstallArgs = InstallArgs(version: string, arch: string, dest: Path)

  /** The raw `go uninstall` arguments. */
  datatype UninstallArgs = UninstallArgs(goRoot: Path, skipPrompt: bool)

  datatype InstallParam = InstallParam(version: Semver.SemanticVersion, arch: Arch, dest: Path)

  datatype UninstallParam = UninstallParam(goRoot: Path, skipRemovePrompt: bool)

  function ArchToken(a: Arch): string
  {
    match a
    case Amd64 => "amd64"
  }

  function OsToken(os: Os): string
  {
    match os
    case Darwin => "darwin"
    case Linux => "linux"
  }

  /** `Arch::from_str`: the token is lower-cased (ASCII only) and must then
      be exactly `amd64`; the error message quotes the lower-cased token. */
  function ArchFromStr(s: string): (r: Outcome<Arch, Error>)
    ensures r.Ok? <==> |s| == 5 && forall i :: 0 <= i < 5 ==> LowerChar(s[i]) == "amd64"[i]
    ensures r.Err? ==> r.error == Message("undefined arch " + ToAsciiLowercase(s))
    ensures !r.Panic?
  {
    var token := ToAsciiLowercase(s);
    if token == "amd64" then Ok(Amd64) else Err(Message("undefined arch " + token))
  }

  /** `InstallParam::try_from`: the version is converted first, then the
      architecture; the destination is taken over unchanged. A malformed
      numeric version segment panics inside the version parser. */
  function InstallParamFrom(v: InstallArgs): (r: Outcome<InstallParam, Error>)
    ensures r.Ok? <==> Semver.FromStr(v.version).Ok? && ArchFromStr(v.arch).Ok?
    ensures r.Ok? ==> && r.value.version == Semver.FromStr(v.version).value
                      && r.value.dest == v.dest
                      && Semver.IsCore(r.value.version)
    ensures r.Panic? <==> Semver.FromStr(v.version).Panic?
    ensures Semver.FromStr(v.version).Err? ==>
              r == Err(Message("semantic version. " + Semver.InvalidFormat))
    ensures Semver.FromStr(v.version).Ok? && !ArchFromStr(v.arch).Ok? ==>
              r == Err(Message("undefined arch " + ToAsciiLowercase(v.arch)))
  {
    match Semver.FromStr(v.version)
    case Panic => Panic
    case Err(e) => Err(Message("semantic version. " + e))
    case Ok(version) =>
      match ArchFromStr(v.arch)
      case Panic => Panic
      case Err(e) => Err(e)
      case Ok(arch) => Ok(InstallParam(version, arch, v.dest))
  }

  /** `UninstallParam::try_from`: never fails; both fields are copied. */
  function UninstallParamFrom(v: UninstallArgs): (r: Outcome<UninstallParam, Error>)
    ensures r.Ok?
    ensures r.value.goRoot == v.goRoot && r.value.skipRemovePrompt == v.skipPrompt
  {
    Ok(UninstallParam(v.goRoot, v.skipPrompt))
  }

  // ---------------------------------------------------------------------
  // Archive naming

  /** `config::go::ARCHIVE_URL`. */
  const ArchiveUrl: string := "https://golang.org/dl"

  /** Where the download is staged, relative to the working directory. */
  const StagingPath: Path := "./go_archive.tar.gz"

  /** The characters a URL path segment may carry without percent-encoding
      (the "unreserved" set of section 2.3 of RFC 3986). */
  predicate IsUnreserved(c: char)
  {
    ('a' <= c <= 'z') || ('A' <= c <= 'Z') || IsDigit(c) || c in "-._~"
  }

  predicate AllUnreserved(s: string)
  {
    forall i :: 0 <= i < |s| ==> IsUnreserved(s[i])
  }

  /** `make_archive_segment`: `go<major>.<minor>.<patch>.<os>-<arch>.tar.gz`.
      Every character is unreserved, so pushing the segment onto the archive
      URL leaves it verbatim. */
  function MakeArchiveSegment(ver: Semver.SemanticVersion, os: Os, arch: Arch): (seg: string)
    ensures AllUnreserved(seg)
    ensures |seg| > 2 && seg[..2] == "go" && IsDigit(seg[2])
  {
    var version := Semver.FormatWithoutPrefix(ver);
    FormatUnreserved(ver);
    TokensUnreserved(os, arch);
    SegmentUnreserved(version, OsToken(os), ArchToken(arch));
    "go" + version + "." + OsToken(os) + "-" + ArchToken(arch) + ".tar.gz"
  }

  /** The download URL: the archive index with the segment appended. */
  function Endpoint(segment: string): string
  {
    ArchiveUrl + "/" + segment
  }

  // ---------------------------------------------------------------------
  // What the collaborators report

  /** One item of the response body stream. */
  datatype StreamItem = Bytes(data: seq<byte>) | StreamFault(detail: string)

  /** `reqwest::get`: a network-level failure, or a response. */
  datatype FetchOutcome = NetworkFailure(detail: string) | Response(status: StatusCode, body: seq<StreamItem>)

  /** Everything `install` learns from the outside world. `writes[i]` is the
      outcome of writing the i-th chunk; chunks past its end are written
      successfully. */
  datatype World = World(
    os: Option<Os>,
    fetch: FetchOutcome,
    open: IoResult,
    writes: seq<IoResult>,
    createDest: IoResult,
    tar: FsOps.SpawnOutcome,
    removeStaging: IoResult)

  /** How a prompt for confirmation ended. */
  datatype PromptOutcome = Answered(yes: bool) | PromptFailed(detail: string)

  /** The effects an operation performed and the `Result` it returned. */
  datatype Run = Run(trace: seq<Effect>, result: Outcome<(), Error>)

  /** `error_for_status`: only client (4xx) and server (5xx) errors fail. */
  predicate IsErrorStatus(code: StatusCode)
  {
    400 <= code < 600
  }

  function WriteOutcome(writes: seq<IoResult>, i: nat): IoResult
  {
    if i < |writes| then writes[i] else Done
  }

  /** The chunks `while let Some(Ok(v)) = stream.next()` consumes: the body
      up to, not including, the first stream error. */
  function LeadingData(body: seq<StreamItem>): (chunks: seq<seq<byte>>)
    ensures |chunks| <= |body|
    ensures forall i :: 0 <= i < |chunks| ==> body[i] == Bytes(chunks[i])
    ensures |chunks| < |body| ==> body[|chunks|].StreamFault?
  {
    if |body| == 0 || body[0].StreamFault? then []
    else [body[0].data] + LeadingData(body[1..])
  }

  function Flatten(chunks: seq<seq<byte>>): seq<byte>
  {
    if |chunks| == 0 then [] else chunks[0] + Flatten(chunks[1..])
  }

  /** Every write among the first `n` succeeds. */
  predicate WritesSucceed(writes: seq<IoResult>, n: nat)
  {
    forall i :: 0 <= i < n ==> WriteOutcome(writes, i).Done?
  }

  /** One `write_all` of each chunk to the staging file, in order. */
  function WriteEffects(chunks: seq<seq<byte>>): (t: seq<Effect>)
    ensures |t| == |chunks|
    ensures forall i :: 0 <= i < |t| ==> t[i] == WriteAll(StagingPath, chunks[i])
  {
    seq(|chunks|, i requires 0 <= i < |chunks| => WriteAll(StagingPath, chunks[i]))
  }

  /** The `write_all` loop: each chunk is written in order until the stream
      ends, yields an error (which is dropped), or a write fails (which is
      returned). */
  function WriteChunks(body: seq<StreamItem>, writes: seq<IoResult>): (s: Step)
    ensures s.trace <= WriteEffects(LeadingData(body))
    ensures s.result.Done? <==> WritesSucceed(writes, |LeadingData(body)|)
    ensures s.result.Done? ==> s.trace == WriteEffects(LeadingData(body))
    ensures s.result.Failed? ==> |s.trace| > 0 && s.result == WriteOutcome(writes, |s.trace| - 1)
    decreases |body|
  {
    if |body| == 0 || body[0].StreamFault? then Step([], Done)
    else
      var e := WriteAll(StagingPath, body[0].data);
      var first := WriteOutcome(writes, 0);
      if first.Failed? then Step([e], first)
      else
        var tail := if |writes| == 0 then [] else writes[1..];
        var rest := WriteChunks(body[1..], tail);
        LeadingDataCons(body);
        WritesSucceedShift(writes, |LeadingData(body)|);
        assert ([e] + rest.trace)[1..] == rest.trace;
        Step([e] + rest.trace, rest.result)
  }

  // ---------------------------------------------------------------------
  // Operator

  /** The URL `install` downloads from on `os`. */
  function InstallUrl(param: InstallParam, os: Os): string
  {
    Endpoint(MakeArchiveSegment(param.version, os, param.arch))
  }

  /** The last three steps of an install, in order. */
  function FinishPlan(dest: Path): seq<Effect>
  {
    [CreateDirAll(dest), SpawnTar(dest, StagingPath), RemoveFile(StagingPath)]
  }

  /** Everything a successful download from `url` into `dest` does, in order. */
  function DownloadPlan(url: string, dest: Path, body: seq<StreamItem>): seq<Effect>
  {
    [HttpGet(url), OpenForWrite(StagingPath)] + WriteEffects(LeadingData(body)) + FinishPlan(dest)
  }

  /** The body of a response, or nothing when there was none. */
  function BodyOf(f: FetchOutcome): seq<StreamItem>
  {
    if f.Response? then f.body else []
  }

  /** `extract_tar_gz(archive_dest, dest)?` then `remove(archive_dest)?`:
      the staging file is removed only after extraction reported `Ok`. */
  function Finish(dest: Path, w: World): (r: Run)
    ensures |r.trace| >= 1 && r.trace <= FinishPlan(dest)
    ensures |r.trace| == 3 <==> w.createDest.Done? && w.tar.Exited?
    ensures |r.trace| >= 2 <==> w.createDest.Done?
    ensures r.result.Ok? <==> w.createDest.Done? && w.tar.Exited? && w.removeStaging.Done?
    ensures r.result.Ok? ==> r.trace == FinishPlan(dest)
    ensures !r.result.Panic?
  {
    var extract := FsOps.ExtractTarGz(StagingPath, dest, w.createDest, w.tar);
    assert extract.trace <= FinishPlan(dest) && |extract.trace| <= 2;
    if extract.result.Failed? then Run(extract.trace, Err(Io(extract.result.detail)))
    else
      var removed := extract.trace + [RemoveFile(StagingPath)];
      if w.removeStaging.Failed? then Run(removed, Err(Io(w.removeStaging.detail)))
      else Run(removed, Ok(()))
  }

  /** Once the status is accepted: open the staging file, write the chunks,
      then finish. */
  function Store(dest: Path, body: seq<StreamItem>, w: World): (r: Run)
    ensures |r.trace| >= 1
    ensures r.trace <= [OpenForWrite(StagingPath)] + WriteEffects(LeadingData(body)) + FinishPlan(dest)
    ensures |r.trace| > 1 + |LeadingData(body)| <==>
              w.open.Done? && WritesSucceed(w.writes, |LeadingData(body)|)
    ensures r.result.Ok? <==> && w.open.Done? && WritesSucceed(w.writes, |LeadingData(body)|)
                              && w.createDest.Done? && w.tar.Exited? && w.removeStaging.Done?
    ensures r.result.Ok? ==> r.trace == [OpenForWrite(StagingPath)] + WriteEffects(LeadingData(body)) + FinishPlan(dest)
    ensures |r.trace| == 4 + |LeadingData(body)| <==>
              w.open.Done? && WritesSucceed(w.writes, |LeadingData(body)|) && w.createDest.Done? && w.tar.Exited?
    ensures !r.result.Panic?
    ensures w.open.Failed? ==> r == Run([OpenForWrite(StagingPath)], Err(Io(w.open.detail)))
    ensures w.open.Done? ==> |r.trace| >= 2
    ensures w.open.Done? && r.result.Err? && 2 <= |r.trace| <= 1 + |LeadingData(body)| ==>
              && WritesSucceed(w.writes, |r.trace| - 2)
              && WriteOutcome(w.writes, |r.trace| - 2).Failed?
              && r.result == Err(Io(WriteOutcome(w.writes, |r.trace| - 2).detail))
    ensures w.open.Done? && WritesSucceed(w.writes, |LeadingData(body)|) ==>
              r == Run([OpenForWrite(StagingPath)] + WriteEffects(LeadingData(body)) + Finish(dest, w).trace,
                       Finish(dest, w).result)
  {
    var staged := [OpenForWrite(StagingPath)];
    var plan := staged + WriteEffects(LeadingData(body)) + FinishPlan(dest);
    if w.open.Failed? then Run(staged, Err(Io(w.open.detail)))
    else
      var write := WriteChunks(body, w.writes);
      var written := staged + write.trace;
      assert written <= plan;
      if write.result.Failed? then
        WriteChunksStopsAtFirstFailure(body, w.writes);
        Run(written, Err(Io(write.result.detail)))
      else
        var finish := Finish(dest, w);
        assert written + finish.trace <= plan by {
          assert plan == written + FinishPlan(dest);
        }
        Run(written + finish.trace, finish.result)
  }

  /** GET `url`, reject a 4xx/5xx status, then store and unpack the body. */
  function Download(url: string, dest: Path, w: World): (r: Run)
    ensures |r.trace| >= 1 && r.trace[0] == HttpGet(url)
    ensures !r.result.Panic?
  {
    var get := [HttpGet(url)];
    match w.fetch
    case NetworkFailure(d) => Run(get, Err(Network(d)))
    case Response(status, body) =>
      if IsErrorStatus(status) then Run(get, Err(HttpStatus(url, status)))
      else
        var store := Store(dest, body, w);
        Run(get + store.trace, store.result)
  }

  /** `Operator::install`. Steps, each aborting on failure: detect the OS
      (an undetected OS panics), GET the archive URL, reject a 4xx/5xx
      status, open the staging file, write the body chunks, extract into
      `dest`, remove the staging file. Whatever happens, the effects are a
      prefix of the plan, and all of it on success. */
  function Install(param: InstallParam, w: World): (r: Run)
    ensures w.os.None? ==> r == Run([], Panic)
    ensures w.os.Some? ==> |r.trace| >= 1 && r.trace[0] == HttpGet(InstallUrl(param, w.os.value))
  {
    if w.os.None? then Run([], Panic)
    else
      Download(InstallUrl(param, w.os.value), param.dest, w)
  }

  /** `Operator::uninstall`: unless the prompt is skipped, ask for
      confirmation (a "no" ends successfully, a prompt error is returned);
      then delete `go_root` recursively and return that call's outcome. */
  function Uninstall(param: UninstallParam, prompt: PromptOutcome, removal: IoResult): (r: Run)
    ensures (RemoveDirAll(param.goRoot) in r.trace) <==> param.skipRemovePrompt || prompt == Answered(true)
    ensures forall i :: 0 <= i < |r.trace| && r.trace[i].RemoveDirAll? ==>
              r.trace[i].path == param.goRoot && i == |r.trace| - 1
    ensures (Confirm(param.goRoot) in r.trace) <==> !param.skipRemovePrompt
    ensures |r.trace| == (if param.skipRemovePrompt then 0 else 1)
                         + (if param.skipRemovePrompt || prompt == Answered(true) then 1 else 0)
    ensures forall e :: e in r.trace ==> e == Confirm(param.goRoot) || e == RemoveDirAll(param.goRoot)
    ensures !param.skipRemovePrompt && prompt == Answered(false) ==> r.result == Ok(())
    ensures !param.skipRemovePrompt && prompt.PromptFailed? ==> r.result == Err(Prompt(prompt.detail))
    ensures RemoveDirAll(param.goRoot) in r.trace ==>
              r.result == (if removal.Done? then Ok(()) else Err(Io(removal.detail)))
  {
    var remove := Run([RemoveDirAll(param.goRoot)],
                      if removal.Done? then Ok(()) else Err(Io(removal.detail)));
    if param.skipRemovePrompt then remove
    else
      var asked := [Confirm(param.goRoot)];
      match prompt
      case PromptFailed(d) => Run(asked, Err(Prompt(d)))
      case Answered(yes) =>
        if !yes then Run(asked, Ok(()))
        else Run(asked + remove.trace, remove.result)
  }

  /** The chunks of a body that starts with data: that data, then the
      chunks of the rest. */
  lemma LeadingDataCons(body: seq<StreamItem>)
    requires |body| > 0 && body[0].Bytes?
    ensures LeadingData(body) == [body[0].data] + LeadingData(body[1..])
    ensures WriteEffects(LeadingData(body))
         == [WriteAll(StagingPath, body[0].data)] + WriteEffects(LeadingData(body[1..]))
  {
    WriteEffectsCons(body[0].data, LeadingData(body[1..]));
  }

  lemma WriteEffectsCons(chunk: seq<byte>, chunks: seq<seq<byte>>)
    ensures WriteEffects([chunk] + chunks) == [WriteAll(StagingPath, chunk)] + WriteEffects(chunks)
  {
    var l, r := WriteEffects([chunk] + chunks), [WriteAll(StagingPath, chunk)] + WriteEffects(chunks);
    assert |l| == |r|;
    forall i | 0 <= i < |l| ensures l[i] == r[i] {
      if i > 0 { assert ([chunk] + chunks)[i] == chunks[i - 1]; }
    }
  }

  /** The write loop stops at its first failing write: every write before
      the last one it performed succeeded. */
  lemma {:induction false} WriteChunksStopsAtFirstFailure(body: seq<StreamItem>, writes: seq<IoResult>)
    ensures WriteChunks(body, writes).result.Failed? ==>
              WritesSucceed(writes, |WriteChunks(body, writes).trace| - 1)
    decreases |body|
  {
    if |body| > 0 && body[0].Bytes? && WriteOutcome(writes, 0).Done? {
      var tail := if |writes| == 0 then [] else writes[1..];
      var rest := WriteChunks(body[1..], tail);
      WriteChunksStopsAtFirstFailure(body[1..], tail);
      if rest.result.Failed? {
        assert |WriteChunks(body, writes).trace| - 1 == |rest.trace|;
        WritesSucceedShift(writes, |rest.trace|);
      }
    }
  }

  /** Once the first write succeeded, the remaining writes decide. */
  lemma WritesSucceedShift(writes: seq<IoResult>, n: nat)
    requires n > 0 && WriteOutcome(writes, 0).Done?
    ensures WritesSucceed(writes, n) <==> WritesSucceed(if |writes| == 0 then [] else writes[1..], n - 1)
  {
    var tail := if |writes| == 0 then [] else writes[1..];
    assert forall i :: 0 <= i ==> WriteOutcome(tail, i) == WriteOutcome(writes, i + 1);
    if WritesSucceed(tail, n - 1) {
      forall i | 0 <= i < n ensures WriteOutcome(writes, i).Done? {
        if i > 0 { assert WriteOutcome(tail, i - 1).Done?; }
      }
    }
  }

  /** Prepending keeps a prefix a prefix. */
  lemma PrefixPrepend(a: seq<Effect>, b: seq<Effect>, c: seq<Effect>)
    requires b <= c
    ensures a + b <= a + c
  {
    assert (a + c)[..|a + b|] == a + c[..|b|];
  }

  lemma UnreservedAppend(a: string, b: string)
    requires AllUnreserved(a) && AllUnreserved(b)
    ensures AllUnreserved(a + b)
  {
    forall i | 0 <= i < |a + b| ensures IsUnreserved((a + b)[i]) {
      if i < |a| { assert (a + b)[i] == a[i]; } else { assert (a + b)[i] == b[i - |a|]; }
    }
  }

  lemma TokensUnreserved(os: Os, arch: Arch)
    ensures AllUnreserved(OsToken(os)) && AllUnreserved(ArchToken(arch))
  {
  }

  /** Gluing unreserved pieces with the segment's fixed text. */
  lemma SegmentUnreserved(version: string, os: string, arch: string)
    requires AllUnreserved(version) && AllUnreserved(os) && AllUnreserved(arch)
    requires |version| > 0 && IsDigit(version[0])
    ensures var seg := "go" + version + "." + os + "-" + arch + ".tar.gz";
            AllUnreserved(seg) && |seg| > 2 && seg[..2] == "go" && IsDigit(seg[2])
  {
    UnreservedAppend("go", version);
    UnreservedAppend("go" + version, ".");
    UnreservedAppend("go" + version + ".", os);
    UnreservedAppend("go" + version + "." + os, "-");
    UnreservedAppend("go" + version + "." + os + "-", arch);
    UnreservedAppend("go" + version + "." + os + "-" + arch, ".tar.gz");
    var seg := "go" + version + "." + os + "-" + arch + ".tar.gz";
    assert seg[2] == version[0];
  }

  /** A rendered version consists of digits and dots only, and starts with
      a digit. */
  lemma FormatUnreserved(ver: Semver.SemanticVersion)
    ensures AllUnreserved(Semver.FormatWithoutPrefix(ver))
    ensures Semver.FormatWithoutPrefix(ver)[0] == ToDecimal(ver.major)[0]
  {
    var a := ToDecimal(ver.major);
    var b := ToDecimal(ver.minor);
    var c := ToDecimal(ver.patch);
    assert AllUnreserved(a) && AllUnreserved(b) && AllUnreserved(c);
    UnreservedAppend(a, ".");
    UnreservedAppend(a + ".", b);
    UnreservedAppend(a + "." + b, ".");
    UnreservedAppend(a + "." + b + ".", c);
  }
}

=== FILE: go_props.dfy ===
/** Properties of the operator in `src/go.rs` that relate several calls or
    follow from its step order. */
module GoProps {
  import opened Outcomes
  import opened Text
  import opened Decimal
  import Semver
  import opened Platform
  import opened Effects
  import FsOps
  import opened Go

  // ---------------------------------------------------------------------
  // Architecture tokens

  /** Case does not matter: two tokens that lower-case alike parse alike,
      and every token renders to one the parser accepts. */
  lemma ArchFromStrCaseInsensitive(s: string, t: string, a: Arch)
    requires ToAsciiLowercase(s) == ToAsciiLowercase(t)
    ensures ArchFromStr(s) == ArchFromStr(t)
    ensures ArchFromStr(ArchToken(a)) == Ok(a)
  {
  }

  /** `AMD64`, `Amd64` and the default flag value are accepted; `arm64` is
      rejected with the message naming it. */
  lemma ArchExamples()
    ensures ArchFromStr("AMD64") == Ok(Amd64)
    ensures ArchFromStr("Amd64") == Ok(Amd64)
    ensures ArchFromStr(DefaultArch) == Ok(Amd64)
    ensures ArchFromStr("arm64") == Err(Message("undefined arch arm64"))
  {
    assert ToAsciiLowercase("AMD64") == "amd64";
    assert ToAsciiLowercase("Amd64") == "amd64";
    assert ToAsciiLowercase("arm64") == "arm64";
    assert "arm64"[1] != "amd64"[1];
    assert "undefined arch " + "arm64" == "undefined arch arm64";
  }

  // ---------------------------------------------------------------------
  // Parameter conversion

  /** The version 1.15.0 every example below uses. */
  function V115(): Semver.SemanticVersion
  {
    Semver.SemanticVersion(1, 15, 0, None, None)
  }

  lemma RenderV115()
    ensures Semver.FormatWithoutPrefix(V115()) == "1.15.0"
  {
  }

  lemma ParseV115()
    ensures Semver.FromStr("v1.15.0") == Ok(V115())
  {
    assert "v1.15.0" == "v" + Semver.FormatWithoutPrefix(V115()) by { RenderV115(); }
    Semver.FormatRoundTrip(V115());
  }

  /** A valid request converts, whatever the case of the architecture, with
      its destination untouched. */
  lemma InstallParamExample(dest: Path)
    ensures InstallParamFrom(InstallArgs("v1.15.0", "AMD64", dest)) == Ok(InstallParam(V115(), Amd64, dest))
  {
    ParseV115();
    ArchExamples();
  }

  /** A two-segment version is rejected with the parser's message behind
      the conversion's own prefix. */
  lemma InstallParamShortVersion(arch: string, dest: Path)
    ensures InstallParamFrom(InstallArgs("1.15", arch, dest))
              == Err(Message("semantic version. " + Semver.InvalidFormat))
  {
    assert Semver.FromStr("1.15") == Err(Semver.InvalidFormat) by {
      assert Join(["1", "15"], '.') == "1.15";
      SplitJoin(["1", "15"], '.');
    }
  }

  // ---------------------------------------------------------------------
  // Archive naming

  lemma SegmentLiteral()
    ensures "go" + "1.15.0" + "." + "darwin" + "-" + "amd64" + ".tar.gz" == "go1.15.0.darwin-amd64.tar.gz"
  {
  }

  lemma SegmentV115()
    ensures MakeArchiveSegment(V115(), Darwin, Amd64) == "go1.15.0.darwin-amd64.tar.gz"
  {
    var v := Semver.FormatWithoutPrefix(V115());
    assert MakeArchiveSegment(V115(), Darwin, Amd64) == "go" + v + "." + "darwin" + "-" + "amd64" + ".tar.gz";
    assert v == "1.15.0" by { RenderV115(); }
    SegmentLiteral();
  }

  /** The unit test: `v1.15.0` on macOS/amd64 names
      `go1.15.0.darwin-amd64.tar.gz`; the rendered version has no `v`. */
  lemma ArchiveSegmentExample()
    ensures Semver.FromStr("v1.15.0") == Ok(V115())
    ensures MakeArchiveSegment(V115(), Darwin, Amd64) == "go1.15.0.darwin-amd64.tar.gz"
  {
    ParseV115();
    SegmentV115();
  }

  /** The pieces a segment splits into at its dots. */
  function SegmentParts(ver: Semver.SemanticVersion, os: Os, arch: Arch): seq<string>
  {
    ["go" + ToDecimal(ver.major), ToDecimal(ver.minor), ToDecimal(ver.patch),
     OsToken(os) + "-" + ArchToken(arch), "tar", "gz"]
  }

  lemma NoDotInDigits(s: string)
    requires AllDigits(s)
    ensures '.' !in s
  {
  }

  lemma NoDotInPrefixed(p: string, s: string)
    requires '.' !in p && '.' !in s
    ensures '.' !in p + s
  {
  }

  /** Regrouping the pieces of a segment, whatever they are. */
  lemma SegmentRegroup(a: string, b: string, c: string, p: string, q: string)
    ensures "go" + (a + "." + b + "." + c) + "." + p + "-" + q + ".tar.gz"
         == "go" + a + "." + b + "." + c + "." + (p + "-" + q) + "." + "tar" + "." + "gz"
  {
    var ext: string := ".tar.gz";
    assert ext == "." + "tar" + "." + "gz";
  }

  /** The segment with every dot exposed. */
  lemma SegmentShape(ver: Semver.SemanticVersion, os: Os, arch: Arch)
    ensures MakeArchiveSegment(ver, os, arch)
         == "go" + ToDecimal(ver.major) + "." + ToDecimal(ver.minor) + "." + ToDecimal(ver.patch)
            + "." + (OsToken(os) + "-" + ArchToken(arch)) + "." + "tar" + "." + "gz"
  {
    SegmentRegroup(ToDecimal(ver.major), ToDecimal(ver.minor), ToDecimal(ver.patch), OsToken(os), ArchToken(arch));
  }

  /** The version part of the segment splits into its three numerals. */
  lemma SplitSegmentVersion(ver: Semver.SemanticVersion)
    ensures var l3 := "go" + ToDecimal(ver.major) + "." + ToDecimal(ver.minor) + "." + ToDecimal(ver.patch);
            Split(l3, '.') == ["go" + ToDecimal(ver.major), ToDecimal(ver.minor), ToDecimal(ver.patch)]
  {
    var a := ToDecimal(ver.major);
    var b := ToDecimal(ver.minor);
    var c := ToDecimal(ver.patch);
    NoDotInDigits(a);
    NoDotInDigits(b);
    NoDotInDigits(c);
    NoDotInPrefixed("go", a);
    var l1 := "go" + a;
    var l2 := l1 + "." + b;
    SplitNoSeparator(l1, '.');
    SplitAppend(l1, '.', b);
    SplitNoSeparator(b, '.');
    assert Split(l2, '.') == [l1, b];
    SplitAppend(l2, '.', c);
    SplitNoSeparator(c, '.');
  }

  lemma NoDotInPlatform(os: Os, arch: Arch)
    ensures '.' !in OsToken(os) + "-" + ArchToken(arch)
  {
    match os
    case Darwin => assert OsToken(os) + "-" + ArchToken(arch) == "darwin-amd64";
    case Linux => assert OsToken(os) + "-" + ArchToken(arch) == "linux-amd64";
  }

  /** The platform and extension part of the segment. */
  lemma SplitSegmentTail(x: string, t: string)
    requires '.' !in t
    ensures Split(x + "." + t + "." + "tar" + "." + "gz", '.') == Split(x, '.') + [t, "tar", "gz"]
  {
    var l4 := x + "." + t;
    var l5 := l4 + "." + "tar";
    SplitPiece(x, t);
    SplitPiece(l4, "tar");
    SplitPiece(l5, "gz");
  }

  /** Appending a dot and a dot-free piece adds one piece. */
  lemma SplitPiece(x: string, t: string)
    requires '.' !in t
    ensures Split(x + "." + t, '.') == Split(x, '.') + [t]
  {
    SplitAppend(x, '.', t);
    SplitNoSeparator(t, '.');
  }

  lemma SplitSegment(ver: Semver.SemanticVersion, os: Os, arch: Arch)
    ensures Split(MakeArchiveSegment(ver, os, arch), '.') == SegmentParts(ver, os, arch)
  {
    SegmentShape(ver, os, arch);
    SplitSegmentVersion(ver);
    NoDotInPlatform(os, arch);
    SplitSegmentTail("go" + ToDecimal(ver.major) + "." + ToDecimal(ver.minor) + "." + ToDecimal(ver.patch),
                     OsToken(os) + "-" + ArchToken(arch));
  }

  /** Different versions or platforms never share an archive name. */
  lemma {:induction false} ArchiveSegmentInjective(v1: Semver.SemanticVersion, o1: Os, a1: Arch,
                                                  v2: Semver.SemanticVersion, o2: Os, a2: Arch)
    requires MakeArchiveSegment(v1, o1, a1) == MakeArchiveSegment(v2, o2, a2)
    ensures v1.major == v2.major && v1.minor == v2.minor && v1.patch == v2.patch
    ensures o1 == o2 && a1 == a2
  {
    SplitSegment(v1, o1, a1);
    SplitSegment(v2, o2, a2);
    var p1 := SegmentParts(v1, o1, a1);
    var p2 := SegmentParts(v2, o2, a2);
    assert p1 == p2;
    assert ToDecimal(v1.major) == p1[0][2..] == p2[0][2..] == ToDecimal(v2.major);
    ToDecimalInjective(v1.major, v2.major);
    ToDecimalInjective(v1.minor, v2.minor);
    ToDecimalInjective(v1.patch, v2.patch);
    assert p1[3][0] == OsToken(o1)[0] && p2[3][0] == OsToken(o2)[0];
  }

  // ---------------------------------------------------------------------
  // Install

  lemma {:induction false} WrittenWriteEffects(chunks: seq<seq<byte>>)
    ensures Written(WriteEffects(chunks)) == Flatten(chunks)
    decreases |chunks|
  {
    if |chunks| > 0 {
      WrittenWriteEffects(chunks[1..]);
      assert WriteEffects(chunks)[1..] == WriteEffects(chunks[1..]);
    }
  }

  lemma TakeAppend(a: seq<Effect>, b: seq<Effect>, k: nat)
    requires k <= |b|
    ensures (a + b)[..|a| + k] == a + b[..k]
  {
  }

  /** Where extraction and removal sit in a plan that writes `chunks`. */
  lemma PlanPositions(url: string, dest: Path, chunks: seq<seq<byte>>)
    ensures var plan := [HttpGet(url), OpenForWrite(StagingPath)] + WriteEffects(chunks) + FinishPlan(dest);
            var n := |chunks|;
            && |plan| == n + 5
            && plan[n + 3] == SpawnTar(dest, StagingPath)
            && plan[n + 4] == RemoveFile(StagingPath)
            && (forall i :: 0 <= i < |plan| && plan[i].SpawnTar? ==> i == n + 3)
            && (forall i :: 0 <= i < |plan| && plan[i].RemoveFile? ==> i == n + 4)
  {
    var n := |chunks|;
    var plan := [HttpGet(url), OpenForWrite(StagingPath)] + WriteEffects(chunks) + FinishPlan(dest);
    forall i | 2 <= i < n + 2 ensures plan[i] == WriteAll(StagingPath, chunks[i - 2]) {
      assert plan[i] == WriteEffects(chunks)[i - 2];
    }
  }

  /** Everything a plan stages before extraction is the written chunks. */
  lemma PlanWritten(url: string, dest: Path, chunks: seq<seq<byte>>)
    ensures var plan := [HttpGet(url), OpenForWrite(StagingPath)] + WriteEffects(chunks) + FinishPlan(dest);
            Written(plan[..|chunks| + 3]) == Flatten(chunks)
  {
    var head := [HttpGet(url), OpenForWrite(StagingPath)];
    var staged := head + WriteEffects(chunks);
    var plan := staged + FinishPlan(dest);
    assert plan[..|chunks| + 3] == staged + [CreateDirAll(dest)] by {
      TakeAppend(staged, FinishPlan(dest), 1);
    }
    assert Written(staged + [CreateDirAll(dest)]) == Written(staged) by {
      WrittenAppend(staged, [CreateDirAll(dest)]);
    }
    assert Written(staged) == Flatten(chunks) by {
      WrittenAppend(head, WriteEffects(chunks));
      WrittenWriteEffects(chunks);
    }
  }

  /** Where the extraction step sits in the plan, and what lies before it. */
  lemma PlanShape(url: string, dest: Path, body: seq<StreamItem>)
    ensures var plan := DownloadPlan(url, dest, body);
            var n := |LeadingData(body)|;
            && |plan| == n + 5
            && plan[n + 3] == SpawnTar(dest, StagingPath)
            && plan[n + 4] == RemoveFile(StagingPath)
            && (forall i :: 0 <= i < |plan| && plan[i].SpawnTar? ==> i == n + 3)
            && (forall i :: 0 <= i < |plan| && plan[i].RemoveFile? ==> i == n + 4)
            && Written(plan[..n + 3]) == Flatten(LeadingData(body))
  {
    PlanPositions(url, dest, LeadingData(body));
    PlanWritten(url, dest, LeadingData(body));
  }

  /** Every collaborator of `download` up to extraction succeeded. */
  predicate ReachesRemoval(w: World)
  {
    && w.fetch.Response? && !IsErrorStatus(w.fetch.status)
    && w.open.Done? && WritesSucceed(w.writes, |LeadingData(w.fetch.body)|)
    && w.createDest.Done? && w.tar.Exited?
  }

  /** `error_for_status` fails on exactly the client-error (4xx) and
      server-error (5xx) classes. */
  lemma ErrorStatusClasses(code: StatusCode)
    ensures IsErrorStatus(code) <==> code / 100 == 4 || code / 100 == 5
  {
  }

  /** Pushing the archive name onto the URL path adds it as one more path
      segment, since the name has no `/`. */
  lemma EndpointPushesSegment(segment: string)
    requires '/' !in segment
    ensures Split(Endpoint(segment), '/') == Split(ArchiveUrl, '/') + [segment]
  {
    SplitAppend(ArchiveUrl, '/', segment);
    SplitNoSeparator(segment, '/');
  }

  /** Every archive name is pushed as a single path segment. */
  lemma InstallUrlSegment(param: InstallParam, os: Os)
    ensures Split(InstallUrl(param, os), '/')
         == Split(ArchiveUrl, '/') + [MakeArchiveSegment(param.version, os, param.arch)]
  {
    var segment := MakeArchiveSegment(param.version, os, param.arch);
    assert '/' !in segment by {
      forall i | 0 <= i < |segment| ensures segment[i] != '/' {
        assert IsUnreserved(segment[i]);
      }
    }
    EndpointPushesSegment(segment);
  }

  /** An accepted response: the GET followed by whatever storing does. */
  lemma DownloadAccepted(url: string, dest: Path, w: World)
    requires w.fetch.Response? && !IsErrorStatus(w.fetch.status)
    ensures Download(url, dest, w) == Run([HttpGet(url)] + Store(dest, w.fetch.body, w).trace,
                                          Store(dest, w.fetch.body, w).result)
  {
  }

  /** The plan is the GET followed by the plan for storing. */
  lemma PlanAfterGet(url: string, dest: Path, body: seq<StreamItem>)
    ensures DownloadPlan(url, dest, body)
         == [HttpGet(url)] + ([OpenForWrite(StagingPath)] + WriteEffects(LeadingData(body)) + FinishPlan(dest))
  {
  }

  /** `download` follows its plan: whatever happens its effects are a prefix
      of the plan, all of it exactly when every collaborator succeeded up to
      the removal of the staging file. */
  lemma DownloadFollowsPlan(url: string, dest: Path, w: World)
    ensures Download(url, dest, w).trace <= DownloadPlan(url, dest, BodyOf(w.fetch))
    ensures Download(url, dest, w).result.Ok? ==> Download(url, dest, w).trace == DownloadPlan(url, dest, BodyOf(w.fetch))
    ensures Download(url, dest, w).result.Ok? <==> ReachesRemoval(w) && w.removeStaging.Done?
    ensures |Download(url, dest, w).trace| == |DownloadPlan(url, dest, BodyOf(w.fetch))| <==> ReachesRemoval(w)
  {
    if w.fetch.Response? && !IsErrorStatus(w.fetch.status) {
      var store := Store(dest, w.fetch.body, w);
      var rest := [OpenForWrite(StagingPath)] + WriteEffects(LeadingData(w.fetch.body)) + FinishPlan(dest);
      DownloadAccepted(url, dest, w);
      PlanAfterGet(url, dest, w.fetch.body);
      PrefixPrepend([HttpGet(url)], store.trace, rest);
    } else {
      assert |DownloadPlan(url, dest, BodyOf(w.fetch))| >= 5;
    }
  }

  /** In any prefix of a plan, extraction comes after all the staging. */
  lemma PrefixStagesBeforeExtract(t: seq<Effect>, url: string, dest: Path, body: seq<StreamItem>)
    requires t <= DownloadPlan(url, dest, body)
    ensures forall i :: 0 <= i < |t| && t[i].SpawnTar? ==>
              t[i] == SpawnTar(dest, StagingPath) && Written(t[..i]) == Flatten(LeadingData(body))
  {
    var plan := DownloadPlan(url, dest, body);
    PlanShape(url, dest, body);
    forall i | 0 <= i < |t| && t[i].SpawnTar?
      ensures t[i] == SpawnTar(dest, StagingPath) && Written(t[..i]) == Flatten(LeadingData(body))
    {
      assert t[i] == plan[i];
      assert t[..i] == plan[..i];
    }
  }

  /** In any prefix of a plan, removal is the last step and follows
      extraction; a prefix reaching it is the whole plan. */
  lemma PrefixRemovesAfterExtract(t: seq<Effect>, url: string, dest: Path, body: seq<StreamItem>)
    requires t <= DownloadPlan(url, dest, body)
    ensures forall i :: 0 <= i < |t| && t[i].RemoveFile? ==>
              && t[i] == RemoveFile(StagingPath) && i == |t| - 1 && |t| == |DownloadPlan(url, dest, body)|
              && t[i - 1] == SpawnTar(dest, StagingPath)
  {
    var plan := DownloadPlan(url, dest, body);
    PlanShape(url, dest, body);
    forall i | 0 <= i < |t| && t[i].RemoveFile?
      ensures && t[i] == RemoveFile(StagingPath) && i == |t| - 1 && |t| == |plan|
              && t[i - 1] == SpawnTar(dest, StagingPath)
    {
      assert t[i] == plan[i];
      assert t[i - 1] == plan[i - 1];
    }
  }

  /** With the OS detected, `install` is the download from its URL. */
  lemma InstallDownloads(param: InstallParam, w: World)
    requires w.os.Some?
    ensures Install(param, w) == Download(InstallUrl(param, w.os.value), param.dest, w)
  {
  }

  /** With the OS taken from `get_os`, a build for anything but macOS
      panics before any effect, and a macOS build fetches the `darwin`
      archive. */
  lemma InstallOnBuildTarget(param: InstallParam, w: World, targetIsMacos: bool)
    requires w.os == GetOs(targetIsMacos)
    ensures Install(param, w).result.Panic? <==> !targetIsMacos
    ensures !targetIsMacos ==> Install(param, w).trace == []
    ensures targetIsMacos ==> Install(param, w).trace[0] == HttpGet(InstallUrl(param, Darwin))
  {
    if targetIsMacos {
      InstallDownloads(param, w);
    }
  }

  /** The archive is extracted into `dest` only after every chunk before the
      first stream error has been written to the staging file. */
  lemma InstallStagesBeforeExtract(param: InstallParam, w: World)
    ensures var t := Install(param, w).trace;
            forall i :: 0 <= i < |t| && t[i].SpawnTar? ==>
              && t[i] == SpawnTar(param.dest, StagingPath)
              && Written(t[..i]) == Flatten(LeadingData(BodyOf(w.fetch)))
  {
    if w.os.Some? {
      var url := InstallUrl(param, w.os.value);
      InstallDownloads(param, w);
      DownloadFollowsPlan(url, param.dest, w);
      PrefixStagesBeforeExtract(Install(param, w).trace, url, param.dest, BodyOf(w.fetch));
    }
  }

  /** The staging file is removed last, right after extraction, and only
      when the directory was created and `tar` was spawned. */
  lemma InstallRemovesAfterExtract(param: InstallParam, w: World)
    ensures var t := Install(param, w).trace;
            forall i :: 0 <= i < |t| && t[i].RemoveFile? ==>
              && t[i] == RemoveFile(StagingPath)
              && i == |t| - 1
              && t[i - 1] == SpawnTar(param.dest, StagingPath)
              && w.createDest.Done? && w.tar.Exited?
  {
    if w.os.Some? {
      var url := InstallUrl(param, w.os.value);
      InstallDownloads(param, w);
      DownloadFollowsPlan(url, param.dest, w);
      PrefixRemovesAfterExtract(Install(param, w).trace, url, param.dest, BodyOf(w.fetch));
    }
  }

  /** `install` returns `Ok` exactly when every collaborator succeeded; a
      stream error is not among the conditions. */
  lemma InstallSucceedsIff(param: InstallParam, w: World)
    ensures Install(param, w).result.Ok? <==>
              && w.os.Some? && w.fetch.Response? && !IsErrorStatus(w.fetch.status)
              && w.open.Done? && WritesSucceed(w.writes, |LeadingData(w.fetch.body)|)
              && w.createDest.Done? && w.tar.Exited? && w.removeStaging.Done?
    ensures Install(param, w).result.Ok? ==>
              Install(param, w).trace == DownloadPlan(InstallUrl(param, w.os.value), param.dest, w.fetch.body)
  {
    if w.os.Some? {
      InstallDownloads(param, w);
      DownloadFollowsPlan(InstallUrl(param, w.os.value), param.dest, w);
    }
  }

  /** A 4xx/5xx response ends the install right after the GET: no staging
      file is opened, nothing is extracted or removed. */
  lemma InstallBadStatus(param: InstallParam, w: World)
    requires w.os.Some? && w.fetch.Response? && IsErrorStatus(w.fetch.status)
    ensures Install(param, w) == Run([HttpGet(InstallUrl(param, w.os.value))],
                                     Err(HttpStatus(InstallUrl(param, w.os.value), w.fetch.status)))
  {
  }

  /** `tar`'s exit status never influences the install. */
  lemma InstallIgnoresTarExitCode(param: InstallParam, w: World, code: int)
    ensures Install(param, w.(tar := FsOps.Exited(code))) == Install(param, w.(tar := FsOps.Exited(0)))
  {
    var w1 := w.(tar := FsOps.Exited(code));
    var w0 := w.(tar := FsOps.Exited(0));
    if w.os.Some? && w.fetch.Response? && !IsErrorStatus(w.fetch.status) {
      assert FsOps.ExtractTarGz(StagingPath, param.dest, w1.createDest, w1.tar)
          == FsOps.ExtractTarGz(StagingPath, param.dest, w0.createDest, w0.tar);
      assert Finish(param.dest, w1) == Finish(param.dest, w0);
      assert WriteChunks(w.fetch.body, w1.writes) == WriteChunks(w.fetch.body, w0.writes);
      assert Store(param.dest, w.fetch.body, w1) == Store(param.dest, w.fetch.body, w0);
    }
  }

  // ---------------------------------------------------------------------
  // Where a failure stops the operator

  /** When the write of chunk `k` is the first to fail, the loop writes
      chunks 0 to `k` and returns that write's error. */
  lemma WriteChunksFailsAt(body: seq<StreamItem>, writes: seq<IoResult>, k: nat)
    requires k < |LeadingData(body)|
    requires WritesSucceed(writes, k) && WriteOutcome(writes, k).Failed?
    ensures WriteChunks(body, writes) == Step(WriteEffects(LeadingData(body))[..k + 1], WriteOutcome(writes, k))
  {
    var s := WriteChunks(body, writes);
    WriteChunksStopsAtFirstFailure(body, writes);
    assert !WritesSucceed(writes, |LeadingData(body)|);
    assert WriteOutcome(writes, |s.trace| - 1).Failed?;
    assert |s.trace| - 1 == k;
  }

  /** Failures before the body is read end `download` at once, each with
      its own error: the network, a 4xx/5xx status, opening the staging file. */
  lemma DownloadEarlyFailures(url: string, dest: Path, w: World)
    ensures w.fetch.NetworkFailure? ==>
              Download(url, dest, w) == Run([HttpGet(url)], Err(Network(w.fetch.detail)))
    ensures w.fetch.Response? && IsErrorStatus(w.fetch.status) ==>
              Download(url, dest, w) == Run([HttpGet(url)], Err(HttpStatus(url, w.fetch.status)))
    ensures w.fetch.Response? && !IsErrorStatus(w.fetch.status) && w.open.Failed? ==>
              Download(url, dest, w) == Run([HttpGet(url), OpenForWrite(StagingPath)], Err(Io(w.open.detail)))
  {
  }

  /** The first failing write ends `download` right after it, with that
      write's error; nothing is extracted or removed. */
  lemma DownloadWriteFailure(url: string, dest: Path, w: World, k: nat)
    requires w.fetch.Response? && !IsErrorStatus(w.fetch.status) && w.open.Done?
    requires k < |LeadingData(w.fetch.body)|
    requires WritesSucceed(w.writes, k) && WriteOutcome(w.writes, k).Failed?
    ensures Download(url, dest, w)
         == Run([HttpGet(url), OpenForWrite(StagingPath)] + WriteEffects(LeadingData(w.fetch.body))[..k + 1],
                Err(Io(WriteOutcome(w.writes, k).detail)))
  {
    var written := WriteEffects(LeadingData(w.fetch.body))[..k + 1];
    WriteChunksFailsAt(w.fetch.body, w.writes, k);
    DownloadAccepted(url, dest, w);
    Reassociate([HttpGet(url)], [OpenForWrite(StagingPath)], written);
  }

  /** With every chunk written, the first failing step of the finish ends
      `download` with its error: creating `dest`, spawning `tar`, or
      removing the staging file. */
  lemma DownloadFinishFailures(url: string, dest: Path, w: World)
    requires w.fetch.Response? && !IsErrorStatus(w.fetch.status) && w.open.Done?
    requires WritesSucceed(w.writes, |LeadingData(w.fetch.body)|)
    ensures var staged := [HttpGet(url), OpenForWrite(StagingPath)] + WriteEffects(LeadingData(w.fetch.body));
            w.createDest.Failed? ==>
              Download(url, dest, w) == Run(staged + [CreateDirAll(dest)], Err(Io(w.createDest.detail)))
    ensures var staged := [HttpGet(url), OpenForWrite(StagingPath)] + WriteEffects(LeadingData(w.fetch.body));
            w.createDest.Done? && w.tar.SpawnFailed? ==>
              Download(url, dest, w)
              == Run(staged + [CreateDirAll(dest), SpawnTar(dest, StagingPath)], Err(Io(w.tar.detail)))
    ensures var staged := [HttpGet(url), OpenForWrite(StagingPath)] + WriteEffects(LeadingData(w.fetch.body));
            w.createDest.Done? && w.tar.Exited? && w.removeStaging.Failed? ==>
              Download(url, dest, w) == Run(staged + FinishPlan(dest), Err(Io(w.removeStaging.detail)))
  {
    var chunks := WriteEffects(LeadingData(w.fetch.body));
    var finish := Finish(dest, w);
    FinishFailures(dest, w);
    StoreAfterWrites(dest, w.fetch.body, w);
    DownloadAccepted(url, dest, w);
    PrependStaged(HttpGet(url), OpenForWrite(StagingPath), chunks, finish.trace);
  }

  /** Each step of the finish that fails ends it with its own error. */
  lemma FinishFailures(dest: Path, w: World)
    ensures w.createDest.Failed? ==> Finish(dest, w) == Run([CreateDirAll(dest)], Err(Io(w.createDest.detail)))
    ensures w.createDest.Done? && w.tar.SpawnFailed? ==>
              Finish(dest, w) == Run([CreateDirAll(dest), SpawnTar(dest, StagingPath)], Err(Io(w.tar.detail)))
    ensures w.createDest.Done? && w.tar.Exited? && w.removeStaging.Failed? ==>
              Finish(dest, w) == Run(FinishPlan(dest), Err(Io(w.removeStaging.detail)))
  {
  }

  /** Once every chunk is written, storing is the staging followed by the finish. */
  lemma StoreAfterWrites(dest: Path, body: seq<StreamItem>, w: World)
    requires w.open.Done? && WritesSucceed(w.writes, |LeadingData(body)|)
    ensures Store(dest, body, w) == Run([OpenForWrite(StagingPath)] + WriteEffects(LeadingData(body)) + Finish(dest, w).trace,
                                        Finish(dest, w).result)
  {
  }

  lemma PrependStaged(get: Effect, open: Effect, chunks: seq<Effect>, finish: seq<Effect>)
    ensures [get] + ([open] + chunks + finish) == [get, open] + chunks + finish
  {
  }

  lemma {:induction false} WriteChunksLeadingData(b1: seq<StreamItem>, b2: seq<StreamItem>, writes: seq<IoResult>)
    requires LeadingData(b1) == LeadingData(b2)
    ensures WriteChunks(b1, writes) == WriteChunks(b2, writes)
    decreases |b1|
  {
    if |LeadingData(b1)| > 0 {
      assert b1[0] == b2[0];
      assert LeadingData(b1[1..]) == LeadingData(b1)[1..] == LeadingData(b2)[1..] == LeadingData(b2[1..]);
      var tail := if |writes| == 0 then [] else writes[1..];
      WriteChunksLeadingData(b1[1..], b2[1..], tail);
    }
  }

  /** The body matters only up to its first stream error: whatever follows
      is never read, and the error itself is not reported. */
  lemma InstallReadsOnlyLeadingData(param: InstallParam, w: World, status: StatusCode,
                                    b1: seq<StreamItem>, b2: seq<StreamItem>)
    requires LeadingData(b1) == LeadingData(b2)
    ensures Install(param, w.(fetch := Response(status, b1))) == Install(param, w.(fetch := Response(status, b2)))
  {
    var w1 := w.(fetch := Response(status, b1));
    var w2 := w.(fetch := Response(status, b2));
    WriteChunksLeadingData(b1, b2, w.writes);
    if w.os.Some? && !IsErrorStatus(status) {
      assert Store(param.dest, b1, w1) == Store(param.dest, b2, w2);
      var url := InstallUrl(param, w.os.value);
      assert Download(url, param.dest, w1) == Download(url, param.dest, w2);
    }
  }

  /** A stream that fails after its data installs as if it had ended. */
  lemma StreamErrorNotReported(param: InstallParam, w: World, status: StatusCode,
                               data: seq<byte>, detail: string, rest: seq<StreamItem>)
    ensures Install(param, w.(fetch := Response(status, [Bytes(data), StreamFault(detail)] + rest)))
         == Install(param, w.(fetch := Response(status, [Bytes(data)])))
  {
    var b1 := [Bytes(data), StreamFault(detail)] + rest;
    assert LeadingData(b1[1..]) == [] by { assert b1[1..][0] == StreamFault(detail); }
    assert LeadingData([Bytes(data)][1..]) == [];
    InstallReadsOnlyLeadingData(param, w, status, b1, [Bytes(data)]);
  }

  /** A macOS world in which every collaborator succeeds. */
  function HappyWorld(status: StatusCode, body: seq<StreamItem>): World
  {
    World(Some(Darwin), Response(status, body), Done, [], Done, FsOps.Exited(0), Done)
  }

  /** Mocked happy path: status 200 and one chunk; the chunk is staged,
      extracted into `dest`, and the staging file removed. */
  lemma InstallHappyPath(param: InstallParam, status: StatusCode, chunk: seq<byte>)
    requires !IsErrorStatus(status)
    ensures Install(param, HappyWorld(status, [Bytes(chunk)]))
              == Run([HttpGet(InstallUrl(param, Darwin)), OpenForWrite(StagingPath), WriteAll(StagingPath, chunk),
                      CreateDirAll(param.dest), SpawnTar(param.dest, StagingPath), RemoveFile(StagingPath)],
                     Ok(()))
  {
    var w := HappyWorld(status, [Bytes(chunk)]);
    var url := InstallUrl(param, Darwin);
    assert LeadingData(w.fetch.body) == [chunk];
    assert WritesSucceed(w.writes, 1);
    InstallSucceedsIff(param, w);
    assert DownloadPlan(url, param.dest, w.fetch.body)
        == [HttpGet(url), OpenForWrite(StagingPath), WriteAll(StagingPath, chunk),
            CreateDirAll(param.dest), SpawnTar(param.dest, StagingPath), RemoveFile(StagingPath)] by {
      assert WriteEffects([chunk]) == [WriteAll(StagingPath, chunk)];
    }
  }

  /** The same for version 1.15.0 on amd64: the archive fetched is
      `go1.15.0.darwin-amd64.tar.gz`. */
  lemma InstallHappyPathExample(dest: Path)
    ensures var url := Endpoint("go1.15.0.darwin-amd64.tar.gz");
            Install(InstallParam(V115(), Amd64, dest), HappyWorld(200, [Bytes([1, 2, 3])]))
              == Run([HttpGet(url), OpenForWrite(StagingPath), WriteAll(StagingPath, [1, 2, 3]),
                      CreateDirAll(dest), SpawnTar(dest, StagingPath), RemoveFile(StagingPath)],
                     Ok(()))
  {
    var param := InstallParam(V115(), Amd64, dest);
    assert InstallUrl(param, Darwin) == Endpoint("go1.15.0.darwin-amd64.tar.gz") by {
      ArchiveSegmentExample();
    }
    InstallHappyPath(param, 200, [1, 2, 3]);
  }

  /** Mocked 404: the install fails with that status and never extracts. */
  lemma InstallNotFoundExample(dest: Path, body: seq<StreamItem>)
    ensures var url := Endpoint("go1.15.0.darwin-amd64.tar.gz");
            Install(InstallParam(V115(), Amd64, dest), HappyWorld(404, body))
              == Run([HttpGet(url)], Err(HttpStatus(url, 404)))
  {
    var param := InstallParam(V115(), Amd64, dest);
    assert InstallUrl(param, Darwin) == Endpoint("go1.15.0.darwin-amd64.tar.gz") by {
      ArchiveSegmentExample();
    }
    InstallBadStatus(param, HappyWorld(404, body));
  }

  // ---------------------------------------------------------------------
  // Uninstall

  /** Declining the prompt is a successful no-op; skipping the prompt
      deletes the root exactly once without asking. */
  lemma UninstallExamples(root: Path, prompt: PromptOutcome, removal: IoResult)
    ensures Uninstall(UninstallParam(root, false), Answered(false), removal) == Run([Confirm(root)], Ok(()))
    ensures Uninstall(UninstallParam(root, true), prompt, removal).trace == [RemoveDirAll(root)]
    ensures Uninstall(UninstallParam(root, false), Answered(true), Done) == Run([Confirm(root), RemoveDirAll(root)], Ok(()))
  {
  }
}

=== FILE: outcomes.dfy ===
/** Result-like datatypes shared by the whole model. */
module Outcomes {

  /** Rust's `Option`. */
  datatype Option<+T> = None | Some(value: T)

  /** What a Rust call can end in: `Ok`, `Err`, or a panic raised by an
      `unwrap()` on a failing value (which aborts the whole operation). */
  datatype Outcome<+T, +E> = Ok(value: T) | Err(error: E) | Panic
}

=== FILE: platform.dfy ===
/** The host operating system (`src/lib.rs`) and how it is detected
    (`src/util.rs`). */
module Platform {
  import opened Outcomes

  datatype Os = Darwin | Linux

  /** `util::get_os`: chosen at compile time. Only a macOS build knows its
      platform; every other build answers `None`, so `Linux` is never
      produced. */
  function GetOs(targetIsMacos: bool): (r: Option<Os>)
    ensures r != Some(Linux)
    ensures r.Some? <==> targetIsMacos
  {
    if targetIsMacos then Some(Darwin) else None
  }
}

=== FILE: semver.dfy ===
/** `src/semver.rs`: the version record and its parser. Only the three
    numeric components are ever read; pre-release and build metadata are
    reserved fields that parsing always leaves empty. */
module Semver {
  import opened Outcomes
  import opened Text
  import opened Decimal

  datatype PreRelease = PreRelease(raw: string)
  datatype BuildMetadata = BuildMetadata(raw: string)

  datatype SemanticVersion = SemanticVersion(
    major: u64,
    minor: u64,
    patch: u64,
    preRelease: Option<PreRelease>,
    buildMetadata: Option<BuildMetadata>)

  /** The parser's one error message, typo included. */
  const InvalidFormat: string := "invalid format. <major>.<minor>.<path>"

  /** `Default::default()`: version 0.1.0 with no suffixes. */
  function Default(): (d: SemanticVersion)
    ensures IsCore(d) && FormatWithoutPrefix(d) == "0.1.0"
  {
    SemanticVersion(0, 1, 0, None, None)
  }

  /** A version with neither of the reserved suffixes, the only kind the
      parser produces. */
  predicate IsCore(v: SemanticVersion)
  {
    v.preRelease.None? && v.buildMetadata.None?
  }

  /** The `.`-separated segments the parser looks at. */
  function Segments(s: string): seq<string>
  {
    Split(TrimStartMatches(s, 'v'), '.')
  }

  /** `SemanticVersion::from_str`. Fewer than three segments is an `Err`;
      a first, second or third segment that is not a `u64` makes the
      `unwrap()` in `from_str` panic; further segments are ignored. */
  function FromStr(s: string): (r: Outcome<SemanticVersion, string>)
    ensures r.Err? <==> |Segments(s)| < 3
    ensures r.Err? ==> r.error == InvalidFormat
    ensures r.Ok? ==> IsCore(r.value)
    ensures r.Ok? ==> && ParseU64(Segments(s)[0]) == Some(r.value.major)
                      && ParseU64(Segments(s)[1]) == Some(r.value.minor)
                      && ParseU64(Segments(s)[2]) == Some(r.value.patch)
    ensures r.Panic? <==> |Segments(s)| >= 3 && !NumericCore(Segments(s))
  {
    var v := Segments(s);
    if |v| < 3 then Err(InvalidFormat)
    else if NumericCore(v) then
      Ok(SemanticVersion(ParseU64(v[0]).value, ParseU64(v[1]).value, ParseU64(v[2]).value, None, None))
    else
      Panic
  }

  /** The first three segments all parse as `u64`. */
  predicate NumericCore(v: seq<string>)
    requires |v| >= 3
  {
    ParseU64(v[0]).Some? && ParseU64(v[1]).Some? && ParseU64(v[2]).Some?
  }

  /** The hand-written `PartialEq`: field by field, which is exactly
      structural equality. */
  function Eq(a: SemanticVersion, b: SemanticVersion): (r: bool)
    ensures r <==> a == b
  {
    && a.major == b.major
    && a.minor == b.minor
    && a.patch == b.patch
    && a.preRelease == b.preRelease
    && a.buildMetadata == b.buildMetadata
  }

  /** `format_without_prefix`: `major.minor.patch`, no leading `v`. */
  function FormatWithoutPrefix(v: SemanticVersion): (r: string)
    ensures |r| > 0 && IsDigit(r[0])
    ensures Split(r, '.') == [ToDecimal(v.major), ToDecimal(v.minor), ToDecimal(v.patch)]
  {
    var a, b, c := ToDecimal(v.major), ToDecimal(v.minor), ToDecimal(v.patch);
    assert AllDigits(a) && AllDigits(b) && AllDigits(c);
    Regroup(a, b, c);
    SplitThree(a, b, c);
    a + "." + b + "." + c
  }

  /** The hand-written equality is exactly structural equality, hence an
      equivalence relation. */
  lemma EqIsStructural(a: SemanticVersion, b: SemanticVersion, c: SemanticVersion)
    ensures Eq(a, b) <==> a == b
    ensures Eq(a, a)
    ensures Eq(a, b) ==> Eq(b, a)
    ensures Eq(a, b) && Eq(b, c) ==> Eq(a, c)
  {
  }

  /** Three dot-free pieces joined by dots are three segments: the first
      with its leading `v`s trimmed, the other two as they are. */
  lemma SegmentsOfThree(a: string, b: string, c: string)
    requires '.' !in a && '.' !in b && '.' !in c
    ensures Segments(a + "." + b + "." + c) == [TrimStartMatches(a, 'v'), b, c]
  {
    var x := TrimStartMatches(a, 'v');
    var rest := "." + b + "." + c;
    assert TrimStartMatches(a + "." + b + "." + c, 'v') == x + rest by {
      Regroup(a, b, c);
      TrimStartMatchesStop(a, rest, 'v');
    }
    TrimStartMatchesKeepsAbsent(a, 'v', '.');
    SplitThree(x, b, c);
  }

  lemma SplitThree(a: string, b: string, c: string)
    requires '.' !in a && '.' !in b && '.' !in c
    ensures Split(a + ("." + b + "." + c), '.') == [a, b, c]
  {
    JoinThree(a, b, c);
    SplitJoin([a, b, c], '.');
  }

  lemma Regroup(a: string, b: string, c: string)
    ensures a + "." + b + "." + c == a + ("." + b + "." + c)
  {
  }

  lemma JoinThree(a: string, b: string, c: string)
    ensures Join([a, b, c], '.') == a + ("." + b + "." + c)
  {
    var parts := [a, b, c];
    var tail := parts[1..];
    assert tail[1..] == [c];
    assert Join(tail, '.') == b + "." + c;
    assert Join(parts, '.') == a + "." + Join(tail, '.');
  }

  /** The rendered version splits back into its three numerals. */
  lemma SegmentsOfFormat(v: SemanticVersion)
    ensures Segments(FormatWithoutPrefix(v)) == [ToDecimal(v.major), ToDecimal(v.minor), ToDecimal(v.patch)]
  {
    var a, b, c := ToDecimal(v.major), ToDecimal(v.minor), ToDecimal(v.patch);
    assert AllDigits(a) && AllDigits(b) && AllDigits(c);
    assert TrimStartMatches(a, 'v') == a by { assert a[0] != 'v'; }
    SegmentsOfThree(a, b, c);
  }

  /** On three dot-separated pieces the parser succeeds exactly when all
      three (the first with its `v`s trimmed) are `u64`s, and panics
      otherwise. */
  lemma FromStrOfThree(a: string, b: string, c: string)
    requires '.' !in a && '.' !in b && '.' !in c
    ensures var x := TrimStartMatches(a, 'v');
            FromStr(a + "." + b + "." + c)
              == if ParseU64(x).Some? && ParseU64(b).Some? && ParseU64(c).Some?
                 then Ok(SemanticVersion(ParseU64(x).value, ParseU64(b).value, ParseU64(c).value, None, None))
                 else Panic
  {
    SegmentsOfThree(a, b, c);
    FromStrOfSegments(a + "." + b + "." + c, TrimStartMatches(a, 'v'), b, c);
  }

  /** The parse of an input whose segments are exactly `x`, `b`, `c`. */
  lemma FromStrOfSegments(s: string, x: string, b: string, c: string)
    requires Segments(s) == [x, b, c]
    ensures FromStr(s)
              == if ParseU64(x).Some? && ParseU64(b).Some? && ParseU64(c).Some?
                 then Ok(SemanticVersion(ParseU64(x).value, ParseU64(b).value, ParseU64(c).value, None, None))
                 else Panic
  {
    var v := Segments(s);
    assert v[0] == x && v[1] == b && v[2] == c;
  }

  /** A third segment that is no `u64` makes the parser panic, whatever
      the first two are. */
  lemma NonNumericPatchPanics(a: string, b: string, c: string)
    requires '.' !in a && '.' !in b && '.' !in c
    requires ParseU64(c).None?
    ensures FromStr(a + "." + b + "." + c) == Panic
  {
    SegmentsOfThree(a, b, c);
  }

  /** Round trip: a version without suffixes survives rendering and
      re-parsing, with or without a leading `v`. */
  lemma {:induction false} FormatRoundTrip(v: SemanticVersion)
    requires IsCore(v)
    ensures FromStr(FormatWithoutPrefix(v)) == Ok(v)
    ensures FromStr("v" + FormatWithoutPrefix(v)) == Ok(v)
    ensures |FormatWithoutPrefix(v)| > 0 && FormatWithoutPrefix(v)[0] != 'v'
  {
    SegmentsOfFormat(v);
    ParseToDecimal(v.major);
    ParseToDecimal(v.minor);
    ParseToDecimal(v.patch);
    assert ("v" + FormatWithoutPrefix(v))[1..] == FormatWithoutPrefix(v);
  }

  /** Any number of leading `v`s is ignored. */
  lemma PrefixIgnored(s: string)
    ensures FromStr("v" + s) == FromStr(s)
  {
    assert ("v" + s)[1..] == s;
  }

  /** Only the first three segments are read. */
  lemma FromStrReadsThreeSegments(s1: string, s2: string)
    requires |Segments(s1)| >= 3 && |Segments(s2)| >= 3
    requires Segments(s1)[..3] == Segments(s2)[..3]
    ensures FromStr(s1) == FromStr(s2)
  {
    var v1, v2 := Segments(s1), Segments(s2);
    assert v1[0] == v2[0] && v1[1] == v2[1] && v1[2] == v2[2] by {
      assert v1[..3][0] == v1[0] && v1[..3][1] == v1[1] && v1[..3][2] == v1[2];
      assert v2[..3][0] == v2[0] && v2[..3][1] == v2[1] && v2[..3][2] == v2[2];
    }
  }

  /** Appending a dotted tail appends its pieces to the segments. */
  lemma SegmentsAppend(s: string, t: string)
    ensures Segments(s + "." + t) == Segments(s) + Split(t, '.')
  {
    TrimDotted(s, t);
    SplitAppend(TrimStartMatches(s, 'v'), '.', t);
  }

  /** Trimming never reaches past a dot. */
  lemma TrimDotted(s: string, t: string)
    ensures TrimStartMatches(s + "." + t, 'v') == TrimStartMatches(s, 'v') + ['.'] + t
  {
    assert s + "." + t == s + ("." + t);
    TrimStartMatchesStop(s, "." + t, 'v');
  }

  /** Segments after the third do not influence the result. */
  lemma {:induction false} TrailingSegmentsIgnored(s: string, t: string)
    requires |Segments(s)| >= 3
    ensures FromStr(s + "." + t) == FromStr(s)
  {
    SegmentsAppend(s, t);
    var v := Segments(s);
    assert (v + Split(t, '.'))[..3] == v[..3];
    FromStrReadsThreeSegments(s + "." + t, s);
  }

  /** Parsing `0.1.0` gives `Default()`; its rendering is `0.1.0`. */
  lemma DefaultRoundTrip()
    ensures FormatWithoutPrefix(Default()) == "0.1.0"
    ensures FromStr("0.1.0") == Ok(Default())
    ensures IsCore(Default())
  {
    assert "0.1.0" == FormatWithoutPrefix(Default()) by { RenderDefault(); }
    FormatRoundTrip(Default());
  }

  lemma RenderDefault()
    ensures FormatWithoutPrefix(Default()) == "0.1.0"
  {
  }

  /** How the example versions render. */
  lemma RenderExamples()
    ensures FormatWithoutPrefix(SemanticVersion(0, 1, 2, None, None)) == "0.1.2"
    ensures FormatWithoutPrefix(SemanticVersion(1, 2, 3, None, None)) == "1.2.3"
  {
  }

  /** The unit test: `v0.1.2` and `0.1.2` parse to the same version. */
  lemma ParseUnitTest()
    ensures FromStr("v0.1.2") == Ok(SemanticVersion(0, 1, 2, None, None))
    ensures FromStr("0.1.2") == Ok(SemanticVersion(0, 1, 2, None, None))
  {
    var v := SemanticVersion(0, 1, 2, None, None);
    assert "0.1.2" == FormatWithoutPrefix(v) by { RenderExamples(); }
    assert "v0.1.2" == "v" + FormatWithoutPrefix(v) by { RenderExamples(); }
    FormatRoundTrip(v);
  }

  /** Every leading `v` is stripped. */
  lemma DoublePrefixExample()
    ensures FromStr("vv1.2.3") == Ok(SemanticVersion(1, 2, 3, None, None))
  {
    var w := SemanticVersion(1, 2, 3, None, None);
    RenderExamples();
    var t := "v" + FormatWithoutPrefix(w);
    assert "v" + t == "vv1.2.3";
    FormatRoundTrip(w);
    PrefixIgnored(t);
  }

  /** A fourth segment is ignored. */
  lemma FourthSegmentExample()
    ensures FromStr("1.2.3.4") == Ok(SemanticVersion(1, 2, 3, None, None))
  {
    var w := SemanticVersion(1, 2, 3, None, None);
    RenderExamples();
    var s := FormatWithoutPrefix(w);
    assert s + "." + "4" == "1.2.3.4";
    FormatRoundTrip(w);
    SegmentsOfFormat(w);
    TrailingSegmentsIgnored(s, "4");
  }

  /** Too few segments is an `Err`. */
  lemma TooFewSegmentsExample()
    ensures FromStr("1.2") == Err(InvalidFormat)
    ensures FromStr("") == Err(InvalidFormat)
  {
    assert Join(["1", "2"], '.') == "1.2";
    SplitJoin(["1", "2"], '.');
  }

  /** A pre-release suffix on the patch number is no `u64`: the parser panics. */
  lemma PreReleaseSuffixPanics()
    ensures FromStr("1.2.3-beta") == Panic
  {
    assert "1.2.3-beta" == "1" + "." + "2" + "." + "3-beta";
    assert ParseU64("3-beta").None? by {
      assert !IsDigit("3-beta"[1]);
    }
    NonNumericPatchPanics("1", "2", "3-beta");
  }
}

=== FILE: text.dfy ===
/** The string primitives of Rust's `str` that the installer relies on:
    `split`, `trim_start_matches` and `to_ascii_lowercase`. */
module Text {

  /** The inverse of `Split`: the parts glued back together with `sep`. */
  function Join(parts: seq<string>, sep: char): string
    requires |parts| >= 1
  {
    if |parts| == 1 then parts[0] else parts[0] + [sep] + Join(parts[1..], sep)
  }

  /** `s.split(sep)`: the maximal `sep`-free pieces between the separators.
      Rust yields at least one piece, even for the empty string. */
  function Split(s: string, sep: char): (parts: seq<string>)
    ensures |parts| >= 1
    ensures forall i :: 0 <= i < |parts| ==> sep !in parts[i]
    ensures Join(parts, sep) == s
    decreases |s|
  {
    if |s| == 0 then [""]
    else if s[0] == sep then
      var rest := Split(s[1..], sep);
      assert [sep] + s[1..] == s;
      [""] + rest
    else
      var rest := Split(s[1..], sep);
      var parts := [[s[0]] + rest[0]] + rest[1..];
      assert parts[1..] == rest[1..];
      assert Join(parts, sep) == [s[0]] + Join(rest, sep);
      assert [s[0]] + s[1..] == s;
      parts
  }

  /** One step of `Split`: a leading separator closes an empty piece, any
      other character joins the first piece of the rest. */
  lemma SplitCons(s: string, sep: char)
    requires |s| > 0
    ensures s[0] == sep ==> Split(s, sep) == [""] + Split(s[1..], sep)
    ensures s[0] != sep ==> Split(s, sep) == [[s[0]] + Split(s[1..], sep)[0]] + Split(s[1..], sep)[1..]
  {
  }

  /** Splitting a string that has a separator in it splits both sides
      independently. */
  lemma {:induction false} SplitAppend(x: string, sep: char, t: string)
    ensures Split(x + [sep] + t, sep) == Split(x, sep) + Split(t, sep)
    decreases |x|
  {
    var s := x + [sep] + t;
    if |x| == 0 {
      assert s[1..] == t;
      SplitCons(s, sep);
    } else {
      assert s[1..] == x[1..] + [sep] + t;
      SplitAppend(x[1..], sep, t);
      SplitAppendStep(x, sep, t);
    }
  }

  /** The inductive step of `SplitAppend`: peel the first character. */
  lemma SplitAppendStep(x: string, sep: char, t: string)
    requires |x| > 0
    requires Split(x[1..] + [sep] + t, sep) == Split(x[1..], sep) + Split(t, sep)
    ensures Split(x + [sep] + t, sep) == Split(x, sep) + Split(t, sep)
  {
    var s := x + [sep] + t;
    assert s[0] == x[0] && s[1..] == x[1..] + [sep] + t;
    if x[0] == sep {
      StepAtSeparator(s, x, sep, Split(t, sep));
    } else {
      StepAtCharacter(s, x, sep, Split(t, sep));
    }
  }

  lemma StepAtSeparator(s: string, x: string, sep: char, rt: seq<string>)
    requires |s| > 0 && |x| > 0 && s[0] == x[0] == sep
    requires Split(s[1..], sep) == Split(x[1..], sep) + rt
    ensures Split(s, sep) == Split(x, sep) + rt
  {
    SplitCons(s, sep);
    SplitCons(x, sep);
    Reassociate([""], Split(x[1..], sep), rt);
  }

  lemma Reassociate<T>(a: seq<T>, b: seq<T>, c: seq<T>)
    ensures a + (b + c) == a + b + c
  {
  }

  lemma StepAtCharacter(s: string, x: string, sep: char, rt: seq<string>)
    requires |s| > 0 && |x| > 0 && s[0] == x[0] != sep
    requires Split(s[1..], sep) == Split(x[1..], sep) + rt
    ensures Split(s, sep) == Split(x, sep) + rt
  {
    SplitCons(s, sep);
    SplitCons(x, sep);
    PieceAppend([x[0]], Split(x[1..], sep), rt);
  }

  lemma PieceAppend(h: string, r: seq<string>, rt: seq<string>)
    requires |r| >= 1
    ensures [h + r[0]] + r[1..] + rt == [h + (r + rt)[0]] + (r + rt)[1..]
  {
    assert (r + rt)[0] == r[0];
    assert (r + rt)[1..] == r[1..] + rt;
  }

  /** A string without separators is a single piece. */
  lemma {:induction false} SplitNoSeparator(s: string, sep: char)
    requires sep !in s
    ensures Split(s, sep) == [s]
    decreases |s|
  {
    if |s| > 0 {
      assert sep !in s[1..] by {
        forall i | 0 <= i < |s[1..]| ensures s[1..][i] != sep {
          assert s[1..][i] == s[i + 1];
        }
      }
      SplitNoSeparator(s[1..], sep);
      assert [s[0]] + s[1..] == s;
    }
  }

  /** `Split` undoes `Join` when no part contains the separator. */
  lemma {:induction false} SplitJoin(parts: seq<string>, sep: char)
    requires |parts| >= 1
    requires forall i :: 0 <= i < |parts| ==> sep !in parts[i]
    ensures Split(Join(parts, sep), sep) == parts
    decreases |parts|
  {
    if |parts| == 1 {
      SplitNoSeparator(parts[0], sep);
    } else {
      SplitJoin(parts[1..], sep);
      SplitAppend(parts[0], sep, Join(parts[1..], sep));
      SplitNoSeparator(parts[0], sep);
      assert [parts[0]] + parts[1..] == parts;
    }
  }

  /** `s.trim_start_matches(c)`: `s` with EVERY leading `c` removed. */
  function TrimStartMatches(s: string, c: char): (r: string)
    ensures |r| <= |s| && r == s[|s| - |r|..]
    ensures forall i :: 0 <= i < |s| - |r| ==> s[i] == c
    ensures |r| > 0 ==> r[0] != c
    decreases |s|
  {
    if |s| > 0 && s[0] == c then TrimStartMatches(s[1..], c) else s
  }

  /** Trimming once is enough. */
  lemma TrimStartMatchesIdempotent(s: string, c: char)
    ensures TrimStartMatches(TrimStartMatches(s, c), c) == TrimStartMatches(s, c)
  {
  }

  /** Text appended after a non-empty trimmed string is left untouched. */
  lemma {:induction false} TrimStartMatchesAppend(s: string, t: string, c: char)
    requires |TrimStartMatches(s, c)| > 0
    ensures TrimStartMatches(s + t, c) == TrimStartMatches(s, c) + t
    decreases |s|
  {
    assert |s| > 0;
    if s[0] == c {
      assert (s + t)[1..] == s[1..] + t;
      TrimStartMatchesAppend(s[1..], t, c);
    }
  }

  /** Trimming adds no characters. */
  lemma TrimStartMatchesKeepsAbsent(s: string, c: char, d: char)
    requires d !in s
    ensures d !in TrimStartMatches(s, c)
  {
    var r := TrimStartMatches(s, c);
    forall i | 0 <= i < |r| ensures r[i] != d {
      assert r[i] == s[|s| - |r| + i];
    }
  }

  /** Trimming stops at the first character that is not `c`, so text that
      starts with such a character is never touched. */
  lemma {:induction false} TrimStartMatchesStop(s: string, t: string, c: char)
    requires |t| > 0 && t[0] != c
    ensures TrimStartMatches(s + t, c) == TrimStartMatches(s, c) + t
    decreases |s|
  {
    if |s| == 0 {
      assert s + t == t;
    } else if s[0] == c {
      assert (s + t)[1..] == s[1..] + t;
      TrimStartMatchesStop(s[1..], t, c);
    }
  }

  /** `char::to_ascii_lowercase`: only `A`..`Z` change. */
  function LowerChar(c: char): char
  {
    if 'A' <= c <= 'Z' then (c as int + 32) as char else c
  }

  /** `str::to_ascii_lowercase`, character by character. */
  function ToAsciiLowercase(s: string): (r: string)
    ensures |r| == |s|
    ensures forall i :: 0 <= i < |s| ==> r[i] == LowerChar(s[i])
    ensures forall i :: 0 <= i < |r| ==> !('A' <= r[i] <= 'Z')
  {
    seq(|s|, i requires 0 <= i < |s| => LowerChar(s[i]))
  }

  /** Lower-casing is idempotent, and leaves a lower-case string alone. */
  lemma ToAsciiLowercaseIdempotent(s: string)
    ensures ToAsciiLowercase(ToAsciiLowercase(s)) == ToAsciiLowercase(s)
  {
  }
}
